=== FILE: README.md ===
# NativeMessenger in Dafny

A model of the message bus of NativeMessenger, a Unity ECS package that lets
systems send plain-data messages to "event systems".

The bus has two sides:

- **Producers.** Producers call `Messenger.Send` or `Messenger.SendRange`.
  Each call reserves a frame at the end of one shared byte log with an atomic
  add to the log's length. It then copies into the frame a header (a flags
  byte and the message type's 32-bit hash, 5 bytes in the assumed packed
  layout), a 4-byte count for a batch, and the raw message bytes.
- **The group.** Once per frame, `NativeEventSystemGroup.OnUpdate` runs three
  steps:
  1. It drains the log. It walks the frames and appends each payload to the
     type slot of its hash. The slot gives the element size, so the payload
     length is size times count.
  2. It visits the consumer bindings made in `OnStartRunning`, in
     registration order, and updates every consumer whose slot has bytes:
     - a managed `EventSystem<T>` reads its slot through `Message`/`Messages`;
     - an unmanaged system gets either the first message copied into its
       `[Message]` field, or a `NativeArray<T>` over the slot stored there.
  3. It empties the log and every slot.

The modules follow that structure:

| module | file | what it holds |
|---|---|---|
| `Wrappers` | `wrappers.dfy` | `Option` and `Result` |
| `Bytes` | `bytes.dfy` | bytes; the C# `int` and its little-endian layout |
| `Frames` | `frames.dfy` | the frame format: header, count, payload; encoding and decoding |
| `SlotTable` | `slots.dfy` | `TypeDataHandle` slots and `ReserveDataSlot` |
| `EventSystem` | `event_system.dfy` | the `IEventSystem` markers and the `Message`/`Messages` accessors |
| `Registry` | `registry.dfy` | `GetMessageType`, the `EventSystemHandle` bindings, the registration loop |
| `Messenger` | `messenger.dfy` | `Send` and the `SendRange` overloads over the shared log |
| `Drain` | `drain.dfy` | the drain/demux loop of `OnUpdate` |
| `Dispatcher` | `dispatch.dfy` | the dispatch loop of `OnUpdate` |
| `Group` | `group.dfy` | `OnCreate`, `OnStartRunning`, `OnUpdate`, and end-to-end properties |
| `Scenario` | `scenario.dfy` | the repository's demo (`TestMessage`, `TestSystem`, `TestClassSystem`) worked end to end |

Modelling choices:

- **Atomic reservations.** Concurrent producers are modelled as a sequence of
  calls, in the order their atomic adds took effect.
- **Slot pointer.** The dispatcher compares a slot's raw data pointer
  (`lastPtr`). The model replaces that pointer with a generation number. The
  generation changes exactly when an append outgrows the slot's storage.
- **Consumer updates.** Running a consumer is an `Update` event. The event
  records what the consumer can see at that moment.

The decoder tests `headerFlags is MessageFlags.Multi`, which compares the
whole flags byte with 1 rather than testing a bit. So a flags byte of 3 reads
as a single message, and `Frames.DecodePrefix` does the same.

## Model

| member | source | states |
|---|---|---|
| Bytes.DecodeEncodeInt32 | Runtime/NativeEventSystemGroup.cs:179 | Reading back the four bytes of an `int`, least significant first, gives back that `int`. |
| Bytes.EncodeDecodeInt32 | Runtime/Messenger/Messenger.cs:52 | Writing an `int` read from four bytes gives back those four bytes. |
| Frames.EncodeHeader | Runtime/Messenger/Messenger.cs:17 | A header takes `sizeof(MessageHeader)` bytes (5 in the assumed packed layout), and the first byte is the flags. |
| Frames.HeaderRoundTrip | Runtime/NativeEventSystemGroup.cs:169 | Reading a header where one was written gives back its flags and hash. |
| Frames.EncodeLayout | Runtime/Messenger/Messenger.cs:22-23 | A frame starts with its header (no flags for a single message, `Multi` for a batch) and ends with its payload. |
| Frames.DecodePrefix | Runtime/NativeEventSystemGroup.cs:169-182 | The hash is the header's hash. The payload starts right after the header, or 4 bytes later when the flags byte equals `Multi`. A `Multi` frame's count is the `int` in those 4 bytes; any other frame has count 1. The result is `None` exactly when those fields would run past the bytes. |
| Frames.DecodeEncoded | Runtime/NativeEventSystemGroup.cs:169-182 | Decoding an encoded frame recovers its hash, its count, where its payload starts and its payload bytes, whatever follows it in the log. |
| Frames.EncodeAll | Runtime/Messenger/Messenger.cs:19-20 | The frames laid end to end take exactly the sum of the frame lengths. |
| Frames.PayloadsForNonEmpty | Runtime/NativeEventSystemGroup.cs:198 | The payloads gathered for a hash are non-empty if and only if some frame of that hash carries a byte. |
| Messenger.AdjacentWrites | Runtime/Messenger/Messenger.cs:22-23 | Two copies, the second starting where the first ends, equal one copy of both. |
| Messenger.Reserve | Runtime/Messenger/Messenger.cs:20 | The atomic add grows the log's length by the frame length and hands back the old length. The bytes already in the log stay, and the memory is untouched. |
| Messenger.FrameCopied | Runtime/Messenger/Messenger.cs:21-23 | A frame copied at its reserved offset becomes exactly the new end of the log. Nothing past the log changes. |
| Messenger.Send | Runtime/Messenger/Messenger.cs:13-24 | The log's contents become the old contents followed by the encoded single frame, at the old length. No byte past the new end changes. |
| Messenger.SendRange | Runtime/Messenger/Messenger.cs:36-54 | The same as `Send`, for a `Multi` frame of `count` elements, with its count written as 4 bytes. |
| Messenger.SendRangeElements | Runtime/Messenger/Messenger.cs:26-34 | The `NativeArray` and `NativeList` overloads append one `Multi` frame whose count is the element count and whose payload is the elements in order. |
| Messenger.SendRangeAsWritten | Runtime/Messenger/Messenger.cs:48-53 | As written, the count copy takes 5 bytes. The result is `None` exactly when that copy runs past the backing memory. Otherwise the frame sits at the old length. |
| Messenger.SpillOverwritten | Runtime/Messenger/Messenger.cs:52-53 | When the payload has at least one byte, the payload copy overwrites the spilled byte. |
| Messenger.SendRangeAsWrittenAgrees | Runtime/Messenger/Messenger.cs:52-53 | With a non-empty payload, `SendRange` as written has exactly the effect of the corrected `SendRange`. |
| Messenger.SendRangeAsWrittenFootprint | Runtime/Messenger/Messenger.cs:52 | The count copy always writes the byte right after the count. The copies stay inside the reserved frame if and only if the payload is non-empty. |
| Messenger.EmptySendRangeSpills | Runtime/Messenger/Messenger.cs:52 | An empty batch, as written, leaves the spilled byte just past the new end of the log. The corrected `SendRange` leaves that byte as it was. |
| Messenger.SendFrame | Runtime/Messenger/Messenger.cs:13-54 | Either overload appends the frame's encoding at the old end of the log. |
| Messenger.SendAll | Runtime/Messenger/Messenger.cs:20 | Sequential sends grow the log's length by the total frame length, and each send reserves one offset. |
| Messenger.SendAllContents | Runtime/Messenger/Messenger.cs:20-23 | Sequential sends leave their frames end to end, in call order, after the old contents. |
| Messenger.SendAllOffsets | Runtime/Messenger/Messenger.cs:20 | Each send's frame starts at the old length plus the lengths of the frames sent before it. |
| Messenger.SendAllDisjoint | Runtime/Messenger/Messenger.cs:20 | The reserved ranges never overlap: an earlier frame ends at or before a later one starts. |
| SlotTable.NewSlot | Runtime/NativeEventSystemGroup.cs:59-63 | A new slot is empty, holds whole elements, and has the message type's size. |
| SlotTable.ReserveDataSlot | Runtime/NativeEventSystemGroup.cs:55-68 | An existing slot comes back unchanged, with the table unchanged. Otherwise a new empty slot of the type's size is added under the hash. No other slot is touched. |
| SlotTable.ReserveDataSlotIdempotent | Runtime/NativeEventSystemGroup.cs:57-64 | Reserving a second time, even with another type of the same hash, finds the first slot and changes nothing. |
| SlotTable.Append | Runtime/NativeEventSystemGroup.cs:186 | `AddRange` puts the bytes after the slot's contents. The storage moves (new generation) if and only if the contents outgrow the capacity. |
| SlotTable.Clear | Runtime/NativeEventSystemGroup.cs:253 | Clearing empties the slot and keeps its size, capacity and storage. |
| SlotTable.ClearAll | Runtime/NativeEventSystemGroup.cs:251-254 | Clearing every slot keeps every key and keeps every slot valid. |
| EventSystem.Messages | Runtime/IEventSystem.cs:18-25 | The view has `Length / sizeof(T)` elements of `sizeof(T)` bytes each. |
| EventSystem.MessagesElement | Runtime/IEventSystem.cs:22 | Element `i` of the view is bytes `[i * size, (i + 1) * size)` of the buffer. |
| EventSystem.Message | Runtime/IEventSystem.cs:16 | `Message` is the first `sizeof(T)` bytes, which is element 0 of `Messages`. |
| EventSystem.MessagesOfFlatten | Runtime/IEventSystem.cs:18-25 | Viewing whole elements laid end to end gives back exactly those elements. |
| EventSystem.FlattenMessages | Runtime/IEventSystem.cs:18-25 | Laying the view's elements end to end gives back a buffer of whole elements. |
| EventSystem.MessagesAppend | Runtime/IEventSystem.cs:22 | The view of two whole-element buffers, one after the other, is the two views one after the other. |
| Registry.GetMessageType | Runtime/NativeEventSystemGroup.cs:257-273 | The result is `None` if and only if no reported interface is an `IEventSystem<T>`. Otherwise it is the `T` of the first one; the bare marker is skipped. |
| Registry.GetMessageTypeResolves | Runtime/NativeEventSystemGroup.cs:259-269 | A system that implements `IEventSystem<T>` for one `T` resolves to `T`, whatever order its interfaces are reported in. |
| Registry.EventSystemResolves | Runtime/IEventSystem.cs:13 | `EventSystem<T>` is an `IEventSystem<T>`, and `GetMessageType` finds `T` for it. |
| Registry.FirstMessageField | Runtime/NativeEventSystemGroup.cs:122-135 | The result is `None` if and only if no field carries `[Message]`. Otherwise it is the first field that does. |
| Registry.BindingFor | Runtime/NativeEventSystemGroup.cs:116-150 | A managed handle gets offset -1 and `isSingle`. An unmanaged one gets the offset of its first `[Message]` field, or -1 when it has none, and is single if and only if that field's type is the message type. |
| Registry.EventSystems | Runtime/NativeEventSystemGroup.cs:100-110 | The loop keeps only event systems, and no more systems than the update list holds. |
| Registry.EventSystemsMembers | Runtime/NativeEventSystemGroup.cs:100-110 | The loop keeps exactly the event systems of the update list: every kept system comes from the list, and every event system of the list is kept. |
| Registry.EventSystemsAppend | Runtime/NativeEventSystemGroup.cs:100-110 | The loop keeps update-list order: the event systems of two lists joined are those of the first followed by those of the second. |
| Registry.EventSystemsSingle | Runtime/NativeEventSystemGroup.cs:110 | A single system is kept if and only if it is an event system. |
| Registry.Consumers | Runtime/NativeEventSystemGroup.cs:110-139 | Resolution succeeds if and only if every event system names its message type and every managed one is an `EventSystemBase`. On success there is one consumer per event system. |
| Registry.ConsumersAt | Runtime/NativeEventSystemGroup.cs:100-113 | The `k`-th consumer is the `k`-th event system in update-list order, with the type `GetMessageType` gives it. |
| Registry.ConsumersFailure | Runtime/NativeEventSystemGroup.cs:110-139 | A failure stops at the first system of the update list that does not resolve, with the error thrown there: no message type (line 272) or a failed cast (line 139). |
| Registry.Bind | Runtime/NativeEventSystemGroup.cs:114-150 | There is one binding per consumer, in order, each as `BindingFor` describes. |
| Registry.Register | Runtime/NativeEventSystemGroup.cs:100-152 | Registration succeeds if and only if every event system names its message type and every managed one is an `EventSystemBase`. On success there is one binding per event system. |
| Registry.RegisterBinding | Runtime/NativeEventSystemGroup.cs:142-150 | The `k`-th binding is the handle for the `k`-th event system and its message type. |
| Registry.RegisterFailure | Runtime/NativeEventSystemGroup.cs:110-139 | A failed registration names the first event system that does not resolve. It reports `MissingMessageType` if and only if that system has no `IEventSystem<T>` (line 272); otherwise the system is managed and the cast to `EventSystemBase` fails (line 139). |
| Registry.RegisteredManagedCast | Runtime/NativeEventSystemGroup.cs:209-213 | After a successful registration every managed event system is an `EventSystemBase`, so the cast `OnUpdate` makes when it rebinds the buffer cannot fail. |
| Registry.HashesCons | Runtime/NativeEventSystemGroup.cs:145 | The hashes of a binding list are the first binding's hash and the hashes of the rest. |
| Registry.RegisterTable | Runtime/NativeEventSystemGroup.cs:114 | Registration adds exactly the bindings' hashes to the table. Every added slot is empty and every existing slot is untouched. |
| Registry.RegisterValid | Runtime/NativeEventSystemGroup.cs:114 | Registration keeps every slot valid and holding whole elements. |
| Registry.BindSlotSize | Runtime/NativeEventSystemGroup.cs:57-61 | Without hash collisions between types of different sizes, every consumer's slot has its message type's size. |
| Drain.StepOf | Runtime/NativeEventSystemGroup.cs:167-188 | One iteration ends the walk only at the end of the log. A frame it reads has the decoded hash and count, which must be registered. Its payload is the `size * count` bytes after the header and any count field. The walk advances past the header, count field and payload together. An unknown hash fails the lookup with `Unregistered`. |
| Drain.AppendTo | Runtime/NativeEventSystemGroup.cs:184-186 | The frame's payload is appended to the slot of its hash, and every other slot is kept. |
| Drain.DrainLog | Runtime/NativeEventSystemGroup.cs:165-189 | Draining keeps the table's keys. An empty log changes nothing. |
| Drain.AppendWhole | Runtime/NativeEventSystemGroup.cs:186 | Appending `size * count` bytes keeps a slot of whole elements whole. |
| Drain.DrainValid | Runtime/NativeEventSystemGroup.cs:165-189 | Draining keeps every slot valid and whole, even when it stops early. |
| Drain.AppendFrameValid | Runtime/NativeEventSystemGroup.cs:186 | Appending a well-sized frame of a registered type keeps every slot valid and whole. |
| Drain.AppendFrames | Runtime/NativeEventSystemGroup.cs:165-189 | The reference drain keeps the keys and the element sizes, and keeps slots valid. |
| Drain.StepOverFrame | Runtime/NativeEventSystemGroup.cs:175-188 | At an encoded frame, the step takes exactly its payload and advances by exactly its length. |
| Drain.StepOverUnregistered | Runtime/NativeEventSystemGroup.cs:184 | At a frame whose hash has no slot, the lookup fails with `Unregistered`. |
| Drain.DrainFrames | Runtime/NativeEventSystemGroup.cs:165-189 | Draining encoded frames, then anything, is the reference drain of those frames followed by draining the rest. |
| Drain.DrainEncoded | Runtime/NativeEventSystemGroup.cs:165-189 | A log of encoded frames of registered types drains without error into exactly the reference result. This is the round trip between sending and draining. |
| Drain.DrainUnregistered | Runtime/NativeEventSystemGroup.cs:184 | A frame of an unregistered type stops the drain with `Unregistered`. The frames before it have been appended and nothing after it has. |
| Drain.AppendFramesContents | Runtime/NativeEventSystemGroup.cs:186 | Each slot ends up holding its old bytes followed by the payloads of its frames, in log order. |
| Drain.AppendFramesGeneration | Runtime/NativeEventSystemGroup.cs:186 | The storage of a slot never goes back to an older generation. It stays the same while the appended bytes fit its capacity. |
| Dispatcher.FieldAddressAsWrittenAgrees | Runtime/NativeEventSystemGroup.cs:225 | `(int*)m_SystemPtr + fieldOffset` reaches the field's byte offset if and only if the offset is 0. |
| Dispatcher.WholeNonEmpty | Runtime/NativeEventSystemGroup.cs:198-201 | A non-empty slot of whole elements holds at least one element. |
| Dispatcher.Deliver | Runtime/NativeEventSystemGroup.cs:203-243 | A managed consumer sees every element of its slot. A consumer without a field gets nothing. A single consumer gets the first `size` bytes at its field. A multi consumer gets an array of every element at its field. Every view has `Length / size` elements. |
| Dispatcher.Rebound | Runtime/NativeEventSystemGroup.cs:209-211 | Managed and multi handles remember the storage they were bound to. Nothing else about a handle changes. |
| Dispatcher.PendingIndices | Runtime/NativeEventSystemGroup.cs:193-201 | These are exactly the handles whose slot has bytes, in increasing order. |
| Dispatcher.AllPendingIndices | Runtime/NativeEventSystemGroup.cs:198-201 | When every slot has bytes, no handle is skipped. |
| Dispatcher.Dispatch | Runtime/NativeEventSystemGroup.cs:193-248 | The dispatch loop keeps one handle per handle and makes one update per handle with a non-empty slot. |
| Dispatcher.DispatchBinding | Runtime/NativeEventSystemGroup.cs:198-243 | A handle whose slot is empty is left alone. Any other is rebound to its slot. |
| Dispatcher.DispatchUpdates | Runtime/NativeEventSystemGroup.cs:193-247 | The `i`-th update goes to the `i`-th handle with bytes, with what `Deliver` gives for it. |
| Dispatcher.DispatchNothingPending | Runtime/NativeEventSystemGroup.cs:198-201 | With every slot empty, no consumer is updated and no handle changes. |
| Dispatcher.StaleMultiLength | Runtime/NativeEventSystemGroup.cs:232-241 | Counterexample: a multi consumer keeps an array length of 3 while its slot holds one message. |
| Dispatcher.Inject | Runtime/NativeEventSystemGroup.cs:227 | The copy puts the value at the offset and leaves every other byte of the system struct alone. It is `None` exactly when the value would not fit. |
| Dispatcher.InjectFillsField | Runtime/NativeEventSystemGroup.cs:225-227 | At the field's own byte offset, the copied value fills the field and nothing else. |
| Dispatcher.InjectAsWrittenMissesField | Runtime/NativeEventSystemGroup.cs:225-227 | Counterexample: a field at offset 4 keeps its old bytes, because the copy as written lands at byte 16. |
| Group.Create | Runtime/NativeEventSystemGroup.cs:42-53 | A new group is idle and not started. Its log has capacity 1024, and it has no slots and no handles. |
| Group.StartRunning | Runtime/NativeEventSystemGroup.cs:84-153 | Once started, the group does nothing. Otherwise it succeeds if and only if every event system names its message type and every managed one is an `EventSystemBase`, with one handle per event system. It keeps every existing slot unchanged, keeps the group valid and idle, and marks it started. |
| Group.OnUpdate | Runtime/NativeEventSystemGroup.cs:155-255 | An empty log changes nothing. An unregistered frame aborts before any consumer runs, keeping the log and the handles. A full drain ends with an empty log, empty slots and a valid group. |
| Group.SendAllTo | Runtime/Messenger/Messenger.cs:20-23 | Producers touch only the log: slots and handles are unchanged. |
| Group.TotalLengthZero | Runtime/NativeEventSystemGroup.cs:158-161 | The log is empty if and only if nothing was sent. |
| Group.IdleDrainContents | Runtime/NativeEventSystemGroup.cs:186 | Starting from empty slots, each slot ends up holding exactly the payloads sent for its hash. |
| Group.SentContents | Runtime/Messenger/Messenger.cs:20-23 | Sends into an idle group leave exactly their frames in the log. |
| Group.TickAfterSends | Runtime/NativeEventSystemGroup.cs:155-255 | After sends, the tick drains without error, dispatches over the slots filled with what was sent, and leaves the group idle again. |
| Group.PendingAfterSends | Runtime/NativeEventSystemGroup.cs:198-201 | A consumer is updated if and only if some frame of its type carrying bytes was sent. |
| Group.PayloadWhole | Runtime/Messenger/Messenger.cs:38 | A well-sized frame carries whole elements. |
| Group.OwnElements | Runtime/IEventSystem.cs:22 | Viewing one frame's payload as elements gives its message, or its batch's elements. |
| Group.MessagesOfPayloads | Runtime/IEventSystem.cs:18-25 | Viewing a slot's payloads as elements gives every message sent with that type, in send order, whether it was sent alone or in a batch. |
| Group.DeliverSent | Runtime/NativeEventSystemGroup.cs:203-243 | Managed and multi consumers see every message sent for their type, in send order. A single consumer sees the first. |
| Group.TickDelivers | Runtime/NativeEventSystemGroup.cs:193-247 | End to end, the `i`-th update of the tick goes to the `i`-th handle whose type was sent, with that handle's delivery. |
| Group.TickAborts | Runtime/NativeEventSystemGroup.cs:184 | A frame of a type nobody registered aborts the tick. No consumer is updated, the log is kept, and the earlier frames' payloads stay in their slots. |
| Scenario.TestSystemsResolve | Runtime/TestMessage.cs:13-35 | Both demo systems are event systems that resolve to `TestMessage`. |
| Scenario.TestHashes | Runtime/TestMessage.cs:13-35 | Both demo handles consume the one hash of `TestMessage`. |
| Scenario.TestConsumers | Runtime/TestMessage.cs:13-35 | The demo systems resolve, in order, to consumers of `TestMessage`. |
| Scenario.TestRegister | Runtime/TestMessage.cs:13-35 | Registration of the demo yields a multi handle at offset 0 and a managed handle, sharing one slot of 4-byte elements. |
| Scenario.TestRegistration | Runtime/TestMessage.cs:13-35 | Starting the demo group succeeds, leaves it idle, and records those two handles. |
| Scenario.TestMessages | Runtime/TestMessage.cs:7-10 | Two 4-byte `TestMessage`s laid end to end view as those two messages. |
| Scenario.TestDispatch | Runtime/TestMessage.cs:13-35 | With both messages in the slot, `TestSystem` gets an array of both, then `TestClassSystem` sees both. |
| Scenario.TestFramesSent | Runtime/TestMessage.cs:41-43 | The two `Send`s produce 18 bytes of registered frames that carry both messages, in order. |
| Scenario.TestTickFrom | Runtime/TestMessage.cs:37-45 | From the registered demo group, the tick after the two sends updates both consumers with both messages. |
| Scenario.TestTick | Runtime/TestMessage.cs:37-45 | The demo end to end: start, two sends, one tick; both consumers are updated in registration order and see both messages in send order. |

## Left out

- Running consumers (`system.Update()`, `impl.UpdateSystem`), `SortSystems`, world and system handles, `OnDestroy` and `Debug.Log`: these are engine calls and I/O. An update is recorded as an event instead.
- Reflection is taken as data. The interfaces a system type reports, whether a managed system's class derives from `EventSystemBase`, its fields' `[Message]` attributes, their types and their byte offsets are inputs.
- The update-list order is an input. The group sorts its systems before registering them, and that sort is not modelled.
- `BurstRuntime.GetHashCode32`: the hash is an uninterpreted field of the message type, and two types may share one.
- Concurrency of producers: the atomic add serialises reservations, and the model takes them in the order they took effect. With the corrected `SendRange` the reservations never overlap (`Messenger.SendAllDisjoint`), so the order of the copies does not matter. As written, an empty batch copies one byte into the next reservation (see Findings), and the model does not interleave that byte with another producer's copies.
- `MessageHeader` is not part of this model. Its layout is assumed packed: a flags byte, then the 32-bit hash least significant byte first, 5 bytes in all. If the struct were laid out with C#'s default alignment, `sizeof(MessageHeader)` would be 8. The frame format would then differ, and so would the size of the overrun in Findings row 1.
- Messenger.Send: requires the frame to fit the log's backing memory. The parallel writer never grows the list and the source does not check, so a send beyond capacity writes past the memory, which is not modelled.
- Messenger.SendRange: requires the frame to fit the backing memory, for the same reason as `Send`.
- Messenger.SendRange: requires `0 <= count`. The public pointer overload accepts a negative count without a check. The total length can then be negative, the atomic add shrinks the log's length, and the payload copy gets a negative size. None of that is modelled.
- Messenger.SendRange: takes `size * count` as an unbounded integer, and requires the payload to be exactly that many bytes. The source computes `sizeof(T) * count` and the total length in a 32-bit `int`, which wraps when the product exceeds `int.MaxValue`: a 4-byte type with count 0x40000001 reserves a 13-byte frame and copies 4 payload bytes. Such calls are outside the model; callers are taken to keep the product at most `int.MaxValue`.
- Messenger.SendRangeAsWritten: requires `0 <= count` and that the frame fits the backing memory, for the same reasons as `SendRange`.
- Messenger.SendRangeAsWritten: takes `size * count` as an unbounded integer, with the same consequence as for `SendRange`.
- Messenger.SendRangeElements: requires the frame to fit the backing memory, for the same reason as `Send`.
- Messenger.SendAll: requires all frames to fit the backing memory, for the same reason as `Send`.
- EventSystem.Message: requires at least one element in the slot. Reading `Message` from an empty slot reads stale memory in the source, and no value is modelled for it.
- Registry.BindSlotSize: requires that no two types sharing a hash have different sizes. With such a collision the slot keeps the first type's size, and later consumers read it with the wrong size.
- Group.StartRunning: a system without a message type, or a managed one that is no `EventSystemBase`, makes the source throw after `_init` is set and after earlier systems were registered (for the cast, after that system's own slot was reserved), so a later call does nothing and keeps a partial registration. The model returns the error and leaves the group unchanged.
- Drain.StepOf: multiplies the slot's size by the frame's count as unbounded integers, where the drain computes `handle.size * count` in a 32-bit `int` (lines 186 and 188 of `Runtime/NativeEventSystemGroup.cs`). On a frame whose product wraps, such as the 13-byte frame above, the source appends the wrapped number of bytes and moves on, while the model stops with `Truncated`.
- Drain: the source walks the log with an offset. The model consumes the log from the front, which reads the same bytes in the same order.
- Drain: `Truncated` and `NegativeCount` stop the model's drain where the source would read past the log or with a negative length. No sequence of sends produces them whose counts are non-negative, whose `size * count` is at most `int.MaxValue`, whose frames fit the log, and in which no two message types of different sizes share a hash (the condition `Registry.SizesAgree` of `Registry.BindSlotSize`). A wrapped product does (see `Drain.StepOf` above). So does a collision: when a registered 4-byte type and an 8-byte type share a hash, the drain steps over a sent 8-byte message by the registered 4-byte size, reads the next header inside the payload, and may stop with `Truncated`, `NegativeCount` or `Unregistered`, or misread the frames after it.
- Slot growth: when `AddRange` outgrows a slot, the model grows it to exactly the needed size. Only whether the storage moves matters to the model, and it moves exactly when the capacity is exceeded.
- Dispatcher.Deliver: the dispatch (`Dispatcher.Dispatch`, `Group.OnUpdate`) follows the `ENABLE_UNITY_COLLECTIONS_CHECKS` build. That build hands a multi consumer a new array of `Length / size` elements on every tick, whatever storage it was bound to. The dispatch also writes at the field's byte offset rather than at four times it. The build without checks, and the `int*` offset, exist only as `Dispatcher.MultiLengthAsWritten` and `Dispatcher.FieldAddressAsWritten`, with their counterexamples.
- A managed consumer's `dataBuffer` is reassigned only when the storage moved. A `NativeList` is a handle to shared list state, so `Messages` always reads the live slot. The model gives a managed consumer the slot's current elements.
- The contents of newly reserved log memory are zeros in `Group.Create`. The source leaves them unspecified, and nothing reads them before a send writes them.

## Findings

| source | as written | input that shows it | evidently intended | confidence | as-written member | corrected member |
|---|---|---|---|---|---|---|
| Runtime/Messenger/Messenger.cs:52 | The count is copied with `headerSize` bytes from `&count`. With the assumed 5-byte header that is one byte more than the 4-byte count; with an 8-byte header it would be four, which would also overrun frames with 1 to 3 payload bytes. | `SendRange` with `count == 0` into a log with room for the frame and one byte more: the byte after `count` lands just past the new end of the log. That byte may lie inside another producer's reservation. | Copy `countSize` (4) bytes. | not executed | Messenger.SendRangeAsWritten, Messenger.EmptySendRangeSpills | Messenger.SendRange |
| Runtime/NativeEventSystemGroup.cs:232-241 | A multi consumer's `NativeArray` is rebuilt only when the slot's storage pointer changed. The array's length is fixed when it is built. | A 4-byte type: tick 1 sends 3 messages and binds the array, because `lastPtr` starts unset. Tick 2 sends 1 message into the same storage. The consumer's array still has length 3 while the slot holds 1 message. | Rebuild the array on every tick with `Length / size` elements, as the checked build does. | not executed | Dispatcher.MultiLengthAsWritten, Dispatcher.StaleMultiLength | Dispatcher.Deliver |
| Runtime/NativeEventSystemGroup.cs:225 | The destination is `(int*)m_SystemPtr + fieldOffset`, which scales the field's byte offset by 4. The same happens at line 236. | A system struct whose `[Message]` field sits at offset 4: the copy lands at byte 16, and the field keeps its old bytes. | Use `(byte*)m_SystemPtr + fieldOffset`. | not executed | Dispatcher.FieldAddressAsWritten, Dispatcher.InjectAsWrittenMissesField | Dispatcher.FieldAddress, Dispatcher.InjectFillsField |

=== FILE: bytes.dfy ===
/**
  Raw bytes, 32-bit integers and their little-endian wire form.

  The bus stores every frame as raw bytes: a one-byte flags field, a 32-bit
  type hash and, for batched frames, a 32-bit element count, all in the
  machine's little-endian two's-complement layout.
 */
module Bytes {

  type byte = x: int | 0 <= x < 256

  /** The C# `int`: 32-bit two's complement. */
  type int32 = x: int | -0x8000_0000 <= x < 0x8000_0000

  /** A size in bytes of a plain-data struct; C# gives every struct at least one byte. */
  type pos = x: int | 0 < x witness 1

  const Int32Max: int := 0x7fff_ffff

  /** The unsigned reading of the same 32 bits. */
  function Unsigned(x: int32): (u: nat)
    ensures u < 0x1_0000_0000
    ensures x >= 0 ==> u == x
    ensures x < 0 ==> u == x + 0x1_0000_0000
  {
    if x < 0 then x + 0x1_0000_0000 else x
  }

  /** The signed reading of a 32-bit pattern. */
  function Signed(u: nat): (x: int32)
    requires u < 0x1_0000_0000
    ensures Unsigned(x) == u
  {
    if u < 0x8000_0000 then u else u - 0x1_0000_0000
  }

  /** The value of four bytes read least significant first. */
  function LittleEndian(b: seq<byte>): (u: nat)
    requires |b| == 4
    ensures u < 0x1_0000_0000
  {
    (b[0] as int) + 256 * ((b[1] as int) + 256 * ((b[2] as int) + 256 * (b[3] as int)))
  }

  /** The four bytes of `x`, least significant first. */
  function EncodeInt32(x: int32): (r: seq<byte>)
    ensures |r| == 4
    ensures LittleEndian(r) == Unsigned(x)
  {
    var u := Unsigned(x);
    var q1 := u / 256;
    var q2 := q1 / 256;
    assert q2 < 65536;
    [u % 256, q1 % 256, q2 % 256, q2 / 256]
  }

  /** Reads four little-endian bytes as a C# `int`. */
  function DecodeInt32(b: seq<byte>): (x: int32)
    requires |b| == 4
    ensures Unsigned(x) == LittleEndian(b)
  {
    Signed(LittleEndian(b))
  }

  lemma UnsignedInjective(x: int32, y: int32)
    requires Unsigned(x) == Unsigned(y)
    ensures x == y
  {
  }

  /** Decoding what was encoded gives back the integer. */
  lemma DecodeEncodeInt32(x: int32)
    ensures DecodeInt32(EncodeInt32(x)) == x
  {
    UnsignedInjective(DecodeInt32(EncodeInt32(x)), x);
  }

  /** The low digit and the rest of a base-256 number are unique. */
  lemma DigitSplit(d0: int, r0: int, d1: int, r1: int)
    requires 0 <= d0 < 256 && 0 <= d1 < 256
    requires d0 + 256 * r0 == d1 + 256 * r1
    ensures d0 == d1 && r0 == r1
  {
    assert -256 < 256 * (r1 - r0) < 256;
  }

  /** A non-zero multiple of `d` is at least `d` away from zero. */
  lemma {:induction false} MulAwayFromZero(d: pos, k: int)
    ensures k >= 1 ==> d * k >= d
    ensures k <= -1 ==> d * k + d <= 0
    decreases if k >= 0 then k else -k
  {
    if k > 1 {
      MulAwayFromZero(d, k - 1);
      assert d * k == d * (k - 1) + d;
    } else if k < -1 {
      MulAwayFromZero(d, k + 1);
      assert d * k == d * (k + 1) - d;
    }
  }

  /** Quotient and remainder are the only ones: Euclidean division by a positive divisor. */
  lemma DivModUnique(x: int, d: pos, q: int, r: int)
    requires x == d * q + r && 0 <= r < d
    ensures x / d == q && x % d == r
  {
    var q' := x / d;
    var r' := x % d;
    assert x == d * q' + r';
    var k := q - q';
    assert d * k == r' - r by {
      assert d * q - d * q' == d * (q - q');
    }
    MulAwayFromZero(d, k);
  }

  /** Taking one divisor's worth off the dividend lowers the quotient by one and keeps the remainder. */
  lemma DivModStep(n: int, d: pos)
    requires n >= d
    ensures (n - d) / d == n / d - 1 && (n - d) % d == n % d
  {
    var q := n / d;
    var r := n % d;
    assert n == d * q + r;
    assert n - d == d * (q - 1) + r by {
      assert d * (q - 1) == d * q - d;
    }
    DivModUnique(n - d, d, q - 1, r);
  }

  /** Base-256 digits are unique: two digit strings with the same value are equal. */
  lemma DigitsUnique(a: seq<byte>, b: seq<byte>)
    requires |a| == 4 && |b| == 4
    requires LittleEndian(a) == LittleEndian(b)
    ensures a == b
  {
    var sa := (a[2] as int) + 256 * (a[3] as int);
    var sb := (b[2] as int) + 256 * (b[3] as int);
    var ra := (a[1] as int) + 256 * sa;
    var rb := (b[1] as int) + 256 * sb;
    DigitSplit(a[0], ra, b[0], rb);
    DigitSplit(a[1], sa, b[1], sb);
    DigitSplit(a[2], a[3], b[2], b[3]);
    assert a == [a[0], a[1], a[2], a[3]] && b == [b[0], b[1], b[2], b[3]];
  }

  /** Encoding what was decoded gives back the four bytes. */
  lemma EncodeDecodeInt32(b: seq<byte>)
    requires |b| == 4
    ensures EncodeInt32(DecodeInt32(b)) == b
  {
    DigitsUnique(EncodeInt32(DecodeInt32(b)), b);
  }

  /** All pieces laid end to end. */
  function Flatten<T>(xs: seq<seq<T>>): (r: seq<T>)
    ensures |xs| == 0 ==> r == []
  {
    if |xs| == 0 then [] else xs[0] + Flatten(xs[1..])
  }

  lemma {:induction false} FlattenAppend<T>(xs: seq<seq<T>>, ys: seq<seq<T>>)
    ensures Flatten(xs + ys) == Flatten(xs) + Flatten(ys)
  {
    if |xs| == 0 {
      assert xs + ys == ys;
    } else {
      assert (xs + ys)[1..] == xs[1..] + ys;
      FlattenAppend(xs[1..], ys);
    }
  }

  /** Every piece has exactly `size` elements. */
  predicate AllOfSize<T>(xs: seq<seq<T>>, size: nat)
  {
    forall i :: 0 <= i < |xs| ==> |xs[i]| == size
  }

  lemma {:induction false} FlattenLength<T>(xs: seq<seq<T>>, size: nat)
    requires AllOfSize(xs, size)
    ensures |Flatten(xs)| == size * |xs|
  {
    if |xs| > 0 {
      FlattenLength(xs[1..], size);
    }
  }

  /**
    `size * count` as repeated addition. Proofs that never look inside it stay
    in linear arithmetic; `TimesIsProduct` connects it to `*`.
   */
  function Times(size: nat, count: nat): nat
    decreases count
  {
    if count == 0 then 0 else size + Times(size, count - 1)
  }

  lemma {:induction false} TimesIsProduct(size: nat, count: nat)
    ensures Times(size, count) == size * count
    decreases count
  {
    if count > 0 {
      TimesIsProduct(size, count - 1);
    }
  }

  /** Appending `a`, then `b`, is appending `a + b`. */
  lemma AppendTwice<T>(s: seq<T>, a: seq<T>, b: seq<T>, ab: seq<T>)
    requires ab == a + b
    ensures (s + a) + b == s + ab
  {
  }
}

=== FILE: dispatch.dfy ===
/**
  The second phase of the group's update: visit the bindings in registration
  order, skip those whose slot stayed empty, and update every other consumer
  once, handing it its messages the way its binding kind asks for.

  Updating a consumer is an event here (`Update`) that records what the
  consumer can see at that moment; running the consumer is not modelled.
 */
module Dispatcher {
  import opened Bytes
  import opened Wrappers
  import opened SlotTable
  import opened EventSystem
  import opened Registry
  import opened Messenger

  /**
    What an updated consumer sees: a managed consumer reads its slot through
    `Messages`; an unmanaged one gets the first element copied into its
    `[Message]` field, or a native array over the slot stored there, or
    nothing when it has no such field. `at` is the byte offset into the
    system struct the source writes to.
   */
  datatype View =
    | ManagedView(messages: seq<seq<byte>>)
    | CopiedValue(at: int, value: seq<byte>)
    | BoundArray(at: int, messages: seq<seq<byte>>)
    | NoMessageField

  datatype Update = Update(system: SystemId, view: View)

  /** Every binding's hash has a slot: registration reserves it before adding the binding. */
  predicate Bound(bindings: seq<Binding>, table: Table)
  {
    forall k :: 0 <= k < |bindings| ==> bindings[k].hash in table
  }

  /** The binding's slot has bytes this tick. */
  predicate Pending(b: Binding, table: Table)
    requires b.hash in table
  {
    |table[b.hash].data| > 0
  }

  /** A multi-value consumer: unmanaged, with a `[Message]` field that is not of the message type. */
  predicate IsMulti(b: Binding)
  {
    !b.isManaged && b.fieldOffset != -1 && !b.isSingle
  }

  /**
    The byte offset into the system struct that a field offset designates.
    The source computes it on an `int*` and so lands four times further in;
    `FieldAddressAsWritten` is that computation.
   */
  function FieldAddress(fieldOffset: int): int
  {
    fieldOffset
  }

  /** `(int*)m_SystemPtr + fieldOffset`, measured in bytes. */
  function FieldAddressAsWritten(fieldOffset: int): int
  {
    4 * fieldOffset
  }

  /** The pointer arithmetic reaches the field only for a field at offset 0. */
  lemma FieldAddressAsWrittenAgrees(fieldOffset: int)
    ensures FieldAddressAsWritten(fieldOffset) == FieldAddress(fieldOffset) <==> fieldOffset == 0
  {
  }

  /** A slot of whole elements that is not empty holds at least one element. */
  lemma WholeNonEmpty(slot: Slot)
    requires slot.Whole() && |slot.data| > 0
    ensures slot.size <= |slot.data|
  {
    if |slot.data| < slot.size {
      DivModUnique(|slot.data|, slot.size, 0, |slot.data|);
    }
  }

  /**
    What the consumer of binding `b` sees when it is updated with a non-empty
    slot: managed and multi consumers see every whole element of the slot,
    from offset 0; a single-value consumer gets the slot's first `size`
    bytes, copied into its field.
   */
  function Deliver(b: Binding, slot: Slot): (v: View)
    requires slot.Whole() && |slot.data| > 0
    ensures b.isManaged ==> v.ManagedView? && Flatten(v.messages) == slot.data
    ensures !b.isManaged && b.fieldOffset == -1 ==> v.NoMessageField?
    ensures !b.isManaged && b.fieldOffset != -1 && b.isSingle ==>
              v.CopiedValue? && v.at == b.fieldOffset && |v.value| == slot.size && slot.data == v.value + slot.data[slot.size..]
    ensures IsMulti(b) ==> v.BoundArray? && v.at == b.fieldOffset && Flatten(v.messages) == slot.data
    ensures (v.ManagedView? || v.BoundArray?) ==>
              |v.messages| == |slot.data| / slot.size && AllOfSize(v.messages, slot.size)
  {
    WholeNonEmpty(slot);
    FlattenMessages(slot.data, slot.size);
    if b.isManaged then ManagedView(Messages(slot.data, slot.size))
    else if b.fieldOffset == -1 then NoMessageField
    else if b.isSingle then CopiedValue(FieldAddress(b.fieldOffset), Message(slot.data, slot.size))
    else BoundArray(FieldAddress(b.fieldOffset), Messages(slot.data, slot.size))
  }

  /**
    The binding after its consumer was updated: managed and multi bindings
    remember the slot generation they were bound to (`lastPtr`); the others
    never look at it.
   */
  function Rebound(b: Binding, slot: Slot): (r: Binding)
    ensures r.system == b.system && r.isManaged == b.isManaged && r.hash == b.hash
    ensures r.isSingle == b.isSingle && r.fieldOffset == b.fieldOffset
    ensures (b.isManaged || IsMulti(b)) ==> r.lastGen == Some(slot.gen)
    ensures !(b.isManaged || IsMulti(b)) ==> r.lastGen == b.lastGen
  {
    if b.isManaged || IsMulti(b) then b.(lastGen := Some(slot.gen)) else b
  }

  /**
    The positions of the pending bindings, in increasing order: the consumers
    the dispatch loop updates, in the order it updates them.
   */
  function PendingIndices(bindings: seq<Binding>, table: Table): (r: seq<nat>)
    requires Bound(bindings, table)
    ensures forall i :: 0 <= i < |r| ==> r[i] < |bindings| && Pending(bindings[r[i]], table)
    ensures forall i, j :: 0 <= i < j < |r| ==> r[i] < r[j]
    ensures forall k :: 0 <= k < |bindings| && Pending(bindings[k], table) ==> k in r
    decreases |bindings|
  {
    if |bindings| == 0 then []
    else
      var n := |bindings| - 1;
      var before := PendingIndices(bindings[..n], table);
      assert forall k :: 0 <= k < n ==> bindings[..n][k] == bindings[k];
      before + (if Pending(bindings[n], table) then [n] else [])
  }

  /** The indices `0 .. n` are the indices `0 .. n - 1` followed by `n`. */
  lemma IndicesSnoc(n: nat)
    ensures seq(n + 1, k => k) == seq(n, k => k) + [n]
  {
  }

  /** When every slot has bytes, no binding is skipped. */
  lemma {:induction false} AllPendingIndices(bindings: seq<Binding>, table: Table)
    requires Bound(bindings, table)
    requires forall k :: 0 <= k < |bindings| ==> Pending(bindings[k], table)
    ensures PendingIndices(bindings, table) == seq(|bindings|, k => k)
    decreases |bindings|
  {
    if |bindings| > 0 {
      var n := |bindings| - 1;
      var prefix := bindings[..n];
      assert forall k :: 0 <= k < n ==> prefix[k] == bindings[k];
      AllPendingIndices(prefix, table);
      assert Pending(bindings[n], table);
      assert PendingIndices(bindings, table) == PendingIndices(prefix, table) + [n];
      IndicesSnoc(n);
    }
  }

  datatype Dispatched = Dispatched(bindings: seq<Binding>, updates: seq<Update>)

  /**
    The dispatch loop, as the state it leaves after visiting every binding:
    a binding whose slot is empty is skipped and left alone; any other has
    its consumer updated and is rebound.
   */
  function Dispatch(bindings: seq<Binding>, table: Table): (r: Dispatched)
    requires Bound(bindings, table) && AllValid(table)
    ensures |r.bindings| == |bindings|
    ensures |r.updates| == |PendingIndices(bindings, table)|
    decreases |bindings|
  {
    if |bindings| == 0 then Dispatched([], [])
    else
      var n := |bindings| - 1;
      var before := Dispatch(bindings[..n], table);
      var b := bindings[n];
      var slot := table[b.hash];
      if |slot.data| == 0 then Dispatched(before.bindings + [b], before.updates)
      else Dispatched(before.bindings + [Rebound(b, slot)], before.updates + [Update(b.system, Deliver(b, slot))])
  }

  /** A binding whose slot is empty is left alone; any other is rebound to its slot. */
  lemma {:induction false} DispatchBinding(bindings: seq<Binding>, table: Table, k: nat)
    requires Bound(bindings, table) && AllValid(table) && k < |bindings|
    ensures var b := bindings[k];
            && (!Pending(b, table) ==> Dispatch(bindings, table).bindings[k] == b)
            && (Pending(b, table) ==> Dispatch(bindings, table).bindings[k] == Rebound(b, table[b.hash]))
    decreases |bindings|
  {
    var n := |bindings| - 1;
    if k < n {
      var prefix := bindings[..n];
      assert prefix[k] == bindings[k];
      DispatchBinding(prefix, table, k);
    }
  }

  /** The `i`-th update goes to the `i`-th pending binding's consumer, with what that binding delivers. */
  lemma {:induction false} DispatchUpdates(bindings: seq<Binding>, table: Table, i: nat)
    requires Bound(bindings, table) && AllValid(table)
    requires i < |PendingIndices(bindings, table)|
    ensures var k := PendingIndices(bindings, table)[i];
            var b := bindings[k];
            Dispatch(bindings, table).updates[i] == Update(b.system, Deliver(b, table[b.hash]))
    decreases |bindings|
  {
    var n := |bindings| - 1;
    var prefix := bindings[..n];
    assert forall k :: 0 <= k < n ==> prefix[k] == bindings[k];
    if i < |PendingIndices(prefix, table)| {
      DispatchUpdates(prefix, table, i);
    }
  }

  /** A tick in which every slot stayed empty updates no consumer and rebinds nothing. */
  lemma DispatchNothingPending(bindings: seq<Binding>, table: Table)
    requires Bound(bindings, table) && AllValid(table)
    requires forall h :: h in table ==> table[h].data == []
    ensures Dispatch(bindings, table) == Dispatched(bindings, [])
  {
    var r := Dispatch(bindings, table);
    forall k | 0 <= k < |bindings| ensures r.bindings[k] == bindings[k] {
      DispatchBinding(bindings, table, k);
    }
  }

  /**
    The length of the array a multi consumer's field holds after dispatch, as
    written: the array is replaced only when the slot's storage moved, so a
    consumer bound to the same storage keeps the length it was given in an
    earlier tick.
   */
  function MultiLengthAsWritten(b: Binding, stored: nat, slot: Slot): nat
  {
    if b.lastGen == Some(slot.gen) then stored else |slot.data| / slot.size
  }

  /**
    The counterexample: a slot of 4-byte messages receives three messages (its
    storage grows to hold them), is cleared, and receives one; the storage did
    not move, so the consumer's array still claims three elements while the
    slot holds one.
   */
  lemma StaleMultiLength()
    ensures var t := Frames.MessageType("TestMessage", 4, 7);
            var b := Binding(1, false, t.hash, false, 0, None);
            var tick1 := Append(NewSlot(t), seq(12, _ => 0));
            var bound := Rebound(b, tick1);
            var stored := MultiLengthAsWritten(b, 0, tick1);
            var tick2 := Append(Clear(tick1), seq(4, _ => 1));
            && stored == 3
            && MultiLengthAsWritten(bound, stored, tick2) == 3
            && |Messages(tick2.data, tick2.size)| == 1
            && Deliver(bound, tick2).messages == Messages(tick2.data, tick2.size)
  {
    var t := Frames.MessageType("TestMessage", 4, 7);
    var tick1 := Append(NewSlot(t), seq(12, _ => 0));
    var tick2 := Append(Clear(tick1), seq(4, _ => 1));
    assert tick1.gen == 1 && tick2.gen == 1;
    DivModUnique(12, 4, 3, 0);
    DivModUnique(4, 4, 1, 0);
  }

  /**
    Copies `value` into the system struct `system` at byte offset `at`, as the
    single-value memcpy does; `None` when the copy would leave the struct.
   */
  function Inject(system: seq<byte>, at: int, value: seq<byte>): (r: Option<seq<byte>>)
    ensures r.Some? <==> 0 <= at && at + |value| <= |system|
    ensures r.Some? ==> |r.value| == |system| && r.value[at..at + |value|] == value
    ensures r.Some? ==> forall i :: 0 <= i < |system| && !(at <= i < at + |value|) ==> r.value[i] == system[i]
  {
    if 0 <= at && at + |value| <= |system| then
      ApplyWriteSlices(system, Write(at, value));
      Some(ApplyWrite(system, Write(at, value)))
    else None
  }

  /** With the field's own byte offset, the copied value lands in the field and nowhere else. */
  lemma InjectFillsField(system: seq<byte>, fieldOffset: nat, value: seq<byte>)
    requires fieldOffset + |value| <= |system|
    ensures var r := Inject(system, FieldAddress(fieldOffset), value);
            && r.Some?
            && r.value[fieldOffset..fieldOffset + |value|] == value
            && r.value[..fieldOffset] == system[..fieldOffset]
            && r.value[fieldOffset + |value|..] == system[fieldOffset + |value|..]
  {
    var r := Inject(system, FieldAddress(fieldOffset), value).value;
    assert r[..fieldOffset] == system[..fieldOffset];
    assert r[fieldOffset + |value|..] == system[fieldOffset + |value|..];
  }

  /**
    The counterexample: a 20-byte system struct whose `[Message]` field of
    4 bytes sits at offset 4. The copy as written lands at byte 16; the field
    keeps its old bytes.
   */
  lemma InjectAsWrittenMissesField()
    ensures var system := seq(20, _ => 0);
            var value := [1, 2, 3, 4];
            var r := Inject(system, FieldAddressAsWritten(4), value);
            && r.Some?
            && r.value[4..8] == system[4..8]
            && r.value[4..8] != value
  {
    var system: seq<byte> := seq(20, _ => 0);
    var value: seq<byte> := [1, 2, 3, 4];
    var r := Inject(system, FieldAddressAsWritten(4), value).value;
    assert r[4] == system[4] == 0;
    assert r[4..8][0] == 0;
  }
}

=== FILE: drain.dfy ===
/**
  The first phase of the group's update: walk the shared log frame by frame
  and append each frame's payload to the slot of its type hash.

  The payload length is not in the frame: it is the slot's element size
  times the frame's count, so the walk can only advance through frames whose
  hash has a slot.
 */
module Drain {
  import opened Bytes
  import opened Wrappers
  import opened Frames
  import opened SlotTable

  /**
    Why the walk stopped early. `Unregistered` is the dictionary lookup that
    throws in the source; `Truncated` and `NegativeCount` guard reads the source
    performs without checking. Sends reach them only with a negative count, with
    a `size * count` beyond `int.MaxValue`, or when two message types of
    different sizes share a hash.
   */
  datatype DrainError =
    | Unregistered(hash: int32)
    | Truncated
    | NegativeCount

  /** One iteration of the walk: the end of the log, an error, or a frame's payload and the frame's length in bytes. */
  datatype Step =
    | Done
    | Stop(error: DrainError)
    | Next(length: nat, hash: int32, count: nat, payload: seq<byte>)

  /** Decodes the frame at the front of `log` and takes `size * count` payload bytes, the size coming from the hash's slot. */
  function StepOf(log: seq<byte>, table: Table): (r: Step)
    ensures r.Done? <==> |log| == 0
    ensures r.Next? ==> 0 < r.length <= |log| && r.hash in table
    ensures r.Next? ==> DecodePrefix(log).Some?
    ensures r.Next? ==>
              var p := DecodePrefix(log).value;
              && r.hash == p.hash && r.count == p.count
              && r.length == p.payloadAt + table[r.hash].size * r.count
              && r.payload == log[p.payloadAt..r.length]
    ensures DecodePrefix(log).Some? && DecodePrefix(log).value.hash !in table ==>
              r == Stop(Unregistered(DecodePrefix(log).value.hash))
  {
    if |log| == 0 then Done
    else match DecodePrefix(log)
      case None => Stop(Truncated)
      case Some(p) =>
        if p.hash !in table then Stop(Unregistered(p.hash))
        else if p.count < 0 then Stop(NegativeCount)
        else
          var n := Times(table[p.hash].size, p.count);
          TimesIsProduct(table[p.hash].size, p.count);
          if p.payloadAt + n > |log| then Stop(Truncated)
          else Next(p.payloadAt + n, p.hash, p.count, log[p.payloadAt..p.payloadAt + n])
  }

  /** Appends `bytes` to the slot under `hash`, and keeps every other slot. */
  function AppendTo(table: Table, hash: int32, bytes: seq<byte>): (r: Table)
    requires hash in table
    ensures r.Keys == table.Keys
    ensures r[hash] == Append(table[hash], bytes)
    ensures forall h :: h in table && h != hash ==> r[h] == table[h]
  {
    table[hash := Append(table[hash], bytes)]
  }

  datatype Drained = Drained(table: Table, error: Option<DrainError>)

  /**
    The decode/demux loop over the unread part of the log: one step, then the
    rest of the log after the frame it read.
   */
  function DrainLog(log: seq<byte>, table: Table): (r: Drained)
    ensures r.table.Keys == table.Keys
    ensures |log| == 0 ==> r == Drained(table, None)
    decreases |log|
  {
    match StepOf(log, table)
    case Done => Drained(table, None)
    case Stop(e) => Drained(table, Some(e))
    case Next(length, hash, _, payload) => DrainLog(log[length..], AppendTo(table, hash, payload))
  }

  /** Appending whole elements keeps a slot whole. */
  lemma {:induction false} AppendWhole(slot: Slot, count: nat, bytes: seq<byte>)
    requires slot.Whole() && |bytes| == slot.size * count
    ensures Append(slot, bytes).Whole()
  {
    var q := |slot.data| / slot.size;
    assert |slot.data| == slot.size * q;
    DivModUnique(|slot.data| + |bytes|, slot.size, q + count, 0);
  }

  /** The payload a step takes is whole elements of its slot. */
  lemma {:induction false} StepPayloadWhole(log: seq<byte>, table: Table)
    requires StepOf(log, table).Next? && AllValid(table)
    ensures var s := StepOf(log, table);
            Append(table[s.hash], s.payload).Whole()
  {
    var s := StepOf(log, table);
    var p := DecodePrefix(log).value;
    TimesIsProduct(table[s.hash].size, s.count);
    AppendWhole(table[s.hash], s.count, s.payload);
  }

  /** Draining keeps every slot valid and holding whole elements, whether or not it stops early. */
  lemma {:induction false} DrainValid(log: seq<byte>, table: Table)
    requires AllValid(table)
    ensures AllValid(DrainLog(log, table).table)
    decreases |log|
  {
    match StepOf(log, table)
    case Done =>
    case Stop(_) =>
    case Next(length, hash, count, payload) =>
      StepPayloadWhole(log, table);
      DrainValid(log[length..], AppendTo(table, hash, payload));
  }

  /** Every frame's hash has a slot of the frame's element size. */
  predicate FramesRegistered(frames: seq<Frame>, table: Table)
  {
    forall i :: 0 <= i < |frames| ==> frames[i].t.hash in table && table[frames[i].t.hash].size == frames[i].t.size
  }

  /** Appending a well-sized frame of a registered type keeps every slot valid and whole. */
  lemma AppendFrameValid(table: Table, f: Frame)
    requires f.t.hash in table && table[f.t.hash].size == f.t.size
    ensures AllValid(table) && f.WellSized() ==> AllValid(AppendTo(table, f.t.hash, f.Payload()))
  {
    if AllValid(table) && f.WellSized() {
      var c := f.Count();
      TimesIsProduct(f.t.size, c);
      AppendWhole(table[f.t.hash], c, f.Payload());
    }
  }

  /** The reference result of a drain: each frame's payload appended to its slot, in log order. */
  function AppendFrames(table: Table, frames: seq<Frame>): (r: Table)
    requires FramesRegistered(frames, table)
    ensures r.Keys == table.Keys
    ensures forall h :: h in table ==> r[h].size == table[h].size
    ensures AllValid(table) && AllWellSized(frames) ==> AllValid(r)
    decreases |frames|
  {
    if |frames| == 0 then table
    else
      var f := frames[0];
      var next := AppendTo(table, f.t.hash, f.Payload());
      assert forall i :: 0 <= i < |frames[1..]| ==> frames[1..][i] == frames[i + 1];
      AppendFrameValid(table, f);
      AppendFrames(next, frames[1..])
  }

  /** The step over a well-sized frame of a registered type yields exactly its payload and its length. */
  lemma {:induction false} StepOverFrame(f: Frame, rest: seq<byte>, table: Table)
    requires f.WellSized()
    requires f.t.hash in table && table[f.t.hash].size == f.t.size
    ensures StepOf(Encode(f) + rest, table) == Next(f.Length(), f.t.hash, f.Count(), f.Payload())
    ensures (Encode(f) + rest)[f.Length()..] == rest
  {
    DecodeEncoded(f, rest);
  }

  /** The step at a frame whose hash has no slot stops with `Unregistered`. */
  lemma {:induction false} StepOverUnregistered(f: Frame, rest: seq<byte>, table: Table)
    requires f.t.hash !in table
    ensures StepOf(Encode(f) + rest, table) == Stop(Unregistered(f.t.hash))
  {
    DecodeEncoded(f, rest);
  }

  /** Registration carries over to all but the first frame, against the table the first one has been appended to. */
  lemma {:induction false} RegisteredRest(frames: seq<Frame>, table: Table)
    requires FramesRegistered(frames, table) && |frames| > 0
    ensures var f := frames[0];
            && FramesRegistered(frames[1..], AppendTo(table, f.t.hash, f.Payload()))
            && AppendFrames(table, frames) == AppendFrames(AppendTo(table, f.t.hash, f.Payload()), frames[1..])
  {
    assert forall i :: 0 <= i < |frames[1..]| ==> frames[1..][i] == frames[i + 1];
  }

  /** What holds of the frames holds of all but the first, against the table the first one has been appended to. */
  lemma {:induction false} RegisteredTail(frames: seq<Frame>, table: Table)
    requires FramesRegistered(frames, table) && AllWellSized(frames) && |frames| > 0
    ensures var f := frames[0];
            && FramesRegistered(frames[1..], AppendTo(table, f.t.hash, f.Payload()))
            && AllWellSized(frames[1..])
            && AppendFrames(table, frames) == AppendFrames(AppendTo(table, f.t.hash, f.Payload()), frames[1..])
  {
    RegisteredRest(frames, table);
    assert forall i :: 0 <= i < |frames[1..]| ==> frames[1..][i] == frames[i + 1];
  }

  /**
    Draining a log that starts with encoded frames appends every frame's
    payload, in order, and carries on with whatever follows them.
   */
  lemma {:induction false} DrainFrames(frames: seq<Frame>, after: seq<byte>, table: Table)
    requires FramesRegistered(frames, table) && AllWellSized(frames)
    ensures DrainLog(EncodeAll(frames) + after, table).error == DrainLog(after, AppendFrames(table, frames)).error
    ensures DrainLog(EncodeAll(frames) + after, table).table == DrainLog(after, AppendFrames(table, frames)).table
    decreases |frames|
  {
    if |frames| > 0 {
      var f, rest := frames[0], frames[1..];
      var tail := EncodeAll(rest) + after;
      EncodeAllCons(frames);
      AppendTwice(Encode(f), EncodeAll(rest), after, tail);
      StepOverFrame(f, tail, table);
      RegisteredTail(frames, table);
      DrainFrames(rest, after, AppendTo(table, f.t.hash, f.Payload()));
    } else {
      assert EncodeAll(frames) + after == after;
    }
  }

  /** Sends drain back without error: the log of encoded frames fills every slot with its frames' payloads. */
  lemma {:induction false} DrainEncoded(frames: seq<Frame>, table: Table)
    requires FramesRegistered(frames, table) && AllWellSized(frames)
    ensures DrainLog(EncodeAll(frames), table) == Drained(AppendFrames(table, frames), None)
  {
    DrainFrames(frames, [], table);
    assert EncodeAll(frames) + [] == EncodeAll(frames);
  }

  /**
    A frame whose hash has no slot stops the drain with `Unregistered`: the
    frames before it have already been appended, nothing after it has.
   */
  lemma {:induction false} DrainUnregistered(good: seq<Frame>, bad: Frame, after: seq<byte>, table: Table)
    requires FramesRegistered(good, table) && AllWellSized(good)
    requires bad.t.hash !in table
    ensures DrainLog(EncodeAll(good) + (Encode(bad) + after), table).error == Some(Unregistered(bad.t.hash))
    ensures DrainLog(EncodeAll(good) + (Encode(bad) + after), table).table == AppendFrames(table, good)
  {
    DrainFrames(good, Encode(bad) + after, table);
    StepOverUnregistered(bad, after, AppendFrames(table, good));
  }

  /** The reference drain fills slot `h` with exactly the payloads of the frames of hash `h`, in order. */
  lemma {:induction false} AppendFramesContents(table: Table, frames: seq<Frame>, h: int32)
    requires FramesRegistered(frames, table) && h in table
    ensures AppendFrames(table, frames)[h].data == table[h].data + PayloadsFor(frames, h)
    decreases |frames|
  {
    if |frames| > 0 {
      var f := frames[0];
      var next := AppendTo(table, f.t.hash, f.Payload());
      var own := if f.t.hash == h then f.Payload() else [];
      RegisteredRest(frames, table);
      AppendFramesContents(next, frames[1..], h);
      assert next[h].data == table[h].data + own;
      AppendTwice(table[h].data, own, PayloadsFor(frames[1..], h), PayloadsFor(frames, h));
    }
  }

  /** The slot's generation moves on only when the appended frames outgrow its storage. */
  lemma {:induction false} AppendFramesGeneration(table: Table, frames: seq<Frame>, h: int32)
    requires FramesRegistered(frames, table) && h in table
    ensures |table[h].data| + |PayloadsFor(frames, h)| <= table[h].capacity ==>
              AppendFrames(table, frames)[h].gen == table[h].gen
    ensures AppendFrames(table, frames)[h].gen >= table[h].gen
    decreases |frames|
  {
    if |frames| > 0 {
      var f := frames[0];
      var next := AppendTo(table, f.t.hash, f.Payload());
      RegisteredRest(frames, table);
      AppendFramesGeneration(next, frames[1..], h);
    }
  }
}

=== FILE: event_system.dfy ===
/**
  The consumer side of the bus as a managed consumer sees it: the
  `IEventSystem` capability markers and the `Message` / `Messages` accessors
  of `EventSystem<T>`, which read the type slot the consumer was bound to.
 */
module EventSystem {
  import opened Bytes
  import opened Frames

  /**
    The interfaces a system type reports: the bare `IEventSystem` marker, an
    `IEventSystem<T>` naming a message type, or anything else.
   */
  datatype Interface =
    | EventSystemMarker
    | EventSystemOf(t: MessageType)
    | OtherInterface(name: string)

  /** What `GetInterfaces()` reports for a class deriving from `EventSystem<T>`. */
  function EventSystemInterfaces(t: MessageType): seq<Interface>
  {
    [EventSystemOf(t), EventSystemMarker]
  }

  /**
    `Messages`: the slot's bytes reinterpreted in place as `|buffer| / size`
    elements of `size` bytes each, from offset 0; a trailing partial element
    is not part of the view.
   */
  function Messages(buffer: seq<byte>, size: pos): (r: seq<seq<byte>>)
    ensures |r| == |buffer| / size
    ensures forall i :: 0 <= i < |r| ==> |r[i]| == size
    decreases |buffer|
  {
    if |buffer| < size then
      assert |buffer| / size == 0 by { DivModUnique(|buffer|, size, 0, |buffer|); }
      []
    else
      DivModStep(|buffer|, size);
      [buffer[..size]] + Messages(buffer[size..], size)
  }

  /** Element `i` of the view is the bytes `[i * size, (i + 1) * size)` of the slot. */
  lemma {:induction false} MessagesElement(buffer: seq<byte>, size: pos, i: nat)
    requires i < |buffer| / size
    ensures i * size + size <= |buffer|
    ensures Messages(buffer, size)[i] == buffer[i * size..i * size + size]
    decreases i
  {
    if |buffer| < size {
      DivModUnique(|buffer|, size, 0, |buffer|);
    } else if i > 0 {
      DivModStep(|buffer|, size);
      MessagesElement(buffer[size..], size, i - 1);
      assert (i - 1) * size + size == i * size;
      assert buffer[size..][(i - 1) * size..(i - 1) * size + size] == buffer[i * size..i * size + size];
    }
  }

  /** `Message`: the first element of the slot. */
  function Message(buffer: seq<byte>, size: pos): (r: seq<byte>)
    requires size <= |buffer|
    ensures |r| == size
    ensures r == Messages(buffer, size)[0]
  {
    buffer[..size]
  }

  /** The view over whole elements laid end to end gives back exactly those elements. */
  lemma {:induction false} MessagesOfFlatten(xs: seq<seq<byte>>, size: pos)
    requires AllOfSize(xs, size)
    ensures Messages(Flatten(xs), size) == xs
    decreases |xs|
  {
    if |xs| > 0 {
      FlattenLength(xs, size);
      var b := Flatten(xs);
      assert b == xs[0] + Flatten(xs[1..]);
      assert b[..size] == xs[0];
      assert b[size..] == Flatten(xs[1..]);
      MessagesOfFlatten(xs[1..], size);
      assert xs == [xs[0]] + xs[1..];
    }
  }

  /** Viewing the concatenation of two whole-element buffers is concatenating their views. */
  lemma {:induction false} MessagesAppend(a: seq<byte>, b: seq<byte>, size: pos)
    requires |a| % size == 0
    ensures Messages(a + b, size) == Messages(a, size) + Messages(b, size)
    decreases |a|
  {
    if |a| >= size {
      assert (a + b)[..size] == a[..size];
      assert (a + b)[size..] == a[size..] + b;
      DivModStep(|a|, size);
      MessagesAppend(a[size..], b, size);
    } else {
      DivModUnique(|a|, size, 0, |a|);
      assert a + b == b;
    }
  }

  /** The bytes of the whole elements in view: everything, when the buffer holds whole elements. */
  lemma {:induction false} FlattenMessages(buffer: seq<byte>, size: pos)
    requires |buffer| % size == 0
    ensures Flatten(Messages(buffer, size)) == buffer
    decreases |buffer|
  {
    if |buffer| >= size {
      DivModStep(|buffer|, size);
      FlattenMessages(buffer[size..], size);
      var m := Messages(buffer, size);
      assert m[0] == buffer[..size];
      assert m[1..] == Messages(buffer[size..], size);
      assert buffer == buffer[..size] + buffer[size..];
    } else {
      DivModUnique(|buffer|, size, 0, |buffer|);
    }
  }
}

=== FILE: frames.dfy ===
/**
  The binary frame format of the message bus.

  A frame is a header `{flags, hash}`, then a 4-byte element count when the
  flags say `Multi`, then the raw payload. The codec knows nothing about
  element sizes: a decoder reads only the structural fields and leaves the
  payload length to its caller, which looks the hash up in the type slot table.
 */
module Frames {
  import opened Bytes
  import opened Wrappers

  /** `sizeof(MessageHeader)`: one flags byte followed by the 32-bit type hash. */
  const HeaderSize: nat := 5

  /** `countSize`: the element count of a multi frame is one C# `int`. */
  const CountSize: nat := 4

  /** `MessageFlags` values: `Multi` is 1; the decoder compares the whole byte with it. */
  const NoFlags: byte := 0
  const MultiFlag: byte := 1

  /** A message type: its name, `sizeof(T)`, and `BurstRuntime.GetHashCode32<T>()`. */
  datatype MessageType = MessageType(name: string, size: pos, hash: int32)

  datatype Header = Header(flags: byte, hash: int32)

  function EncodeHeader(h: Header): (r: seq<byte>)
    ensures |r| == HeaderSize
    ensures r[0] == h.flags
  {
    [h.flags] + EncodeInt32(h.hash)
  }

  function DecodeHeader(b: seq<byte>): Header
    requires |b| == HeaderSize
  {
    Header(b[0], DecodeInt32(b[1..]))
  }

  lemma HeaderRoundTrip(h: Header)
    ensures DecodeHeader(EncodeHeader(h)) == h
  {
    var b := EncodeHeader(h);
    assert b[1..] == EncodeInt32(h.hash);
    DecodeEncodeInt32(h.hash);
  }

  /**
    One frame as a producer emits it: `Send` writes a single message,
    `SendRange` a count followed by that many elements.
   */
  datatype Frame =
    | Single(t: MessageType, message: seq<byte>)
    | Multi(t: MessageType, count: int32, payload: seq<byte>)
  {
    /** The payload is exactly `sizeof(T)` bytes per element and the count is not negative. */
    predicate WellSized()
    {
      match this
      case Single(t, m) => |m| == t.size
      case Multi(t, c, p) => 0 <= c && |p| == Times(t.size, c)
    }

    function Payload(): seq<byte>
    {
      match this
      case Single(_, m) => m
      case Multi(_, _, p) => p
    }

    function Flags(): byte
    {
      if Multi? then MultiFlag else NoFlags
    }

    /** The number of elements the frame carries. */
    function Count(): int32
    {
      if Multi? then count else 1
    }

    /** Bytes in front of the payload: the header, plus the count for a batch. */
    function PrefixLength(): nat
    {
      HeaderSize + (if Multi? then CountSize else 0)
    }

    function Length(): nat
    {
      PrefixLength() + |Payload()|
    }
  }

  predicate AllWellSized(frames: seq<Frame>)
  {
    forall i :: 0 <= i < |frames| ==> frames[i].WellSized()
  }

  /** The frame's bytes as they appear in the shared log. */
  function Encode(f: Frame): (r: seq<byte>)
    ensures |r| == f.Length()
  {
    match f
    case Single(t, m) => EncodeHeader(Header(NoFlags, t.hash)) + m
    case Multi(t, c, p) => EncodeHeader(Header(MultiFlag, t.hash)) + EncodeInt32(c) + p
  }

  /** A frame starts with its header and ends with its payload. */
  lemma EncodeLayout(f: Frame)
    ensures Encode(f)[..HeaderSize] == EncodeHeader(Header(f.Flags(), f.t.hash))
    ensures Encode(f)[f.PrefixLength()..] == f.Payload()
  {
  }

  /** What the decoder learns from a frame's structural fields: the hash, the count and where the payload starts. */
  datatype Prefix = Prefix(hash: int32, count: int32, payloadAt: nat)

  /**
    Decodes the header at the front of `bytes`, and the count when the flags
    equal `Multi`; any other flags value reads as a single message. `None`
    when the fields would run past the end of the bytes.
   */
  function DecodePrefix(bytes: seq<byte>): (r: Option<Prefix>)
    ensures r.Some? ==> HeaderSize <= r.value.payloadAt <= |bytes|
    ensures r.Some? ==> r.value.hash == DecodeHeader(bytes[..HeaderSize]).hash
    ensures r.Some? ==> r.value.payloadAt == HeaderSize + (if bytes[0] == MultiFlag then CountSize else 0)
    ensures r.Some? && bytes[0] == MultiFlag ==> r.value.count == DecodeInt32(bytes[HeaderSize..HeaderSize + CountSize])
    ensures r.Some? && bytes[0] != MultiFlag ==> r.value.count == 1
    ensures r.None? <==> |bytes| < HeaderSize || (bytes[0] == MultiFlag && |bytes| < HeaderSize + CountSize)
  {
    if |bytes| < HeaderSize then None
    else
      var h := DecodeHeader(bytes[..HeaderSize]);
      if h.flags == MultiFlag then
        if |bytes| < HeaderSize + CountSize then None
        else Some(Prefix(h.hash, DecodeInt32(bytes[HeaderSize..HeaderSize + CountSize]), HeaderSize + CountSize))
      else
        Some(Prefix(h.hash, 1, HeaderSize))
  }

  /** Decoding the front of an encoded frame, whatever follows it, recovers its hash, its count and where its payload starts. */
  lemma DecodeEncoded(f: Frame, rest: seq<byte>)
    ensures DecodePrefix(Encode(f) + rest) == Some(Prefix(f.t.hash, f.Count(), f.PrefixLength()))
    ensures (Encode(f) + rest)[f.PrefixLength()..f.Length()] == f.Payload()
  {
    var e := Encode(f);
    var b := e + rest;
    EncodeLayout(f);
    assert b[..HeaderSize] == e[..HeaderSize];
    HeaderRoundTrip(Header(f.Flags(), f.t.hash));
    if f.Multi? {
      assert b[HeaderSize..HeaderSize + CountSize] == EncodeInt32(f.count);
      DecodeEncodeInt32(f.count);
    }
    assert b[f.PrefixLength()..f.Length()] == e[f.PrefixLength()..];
  }

  /** The frames laid end to end, as sequential sends leave them in the log. */
  function EncodeAll(frames: seq<Frame>): (r: seq<byte>)
    ensures |r| == TotalLength(frames)
  {
    if |frames| == 0 then [] else Encode(frames[0]) + EncodeAll(frames[1..])
  }

  lemma {:induction false} EncodeAllCons(frames: seq<Frame>)
    requires |frames| > 0
    ensures EncodeAll(frames) == Encode(frames[0]) + EncodeAll(frames[1..])
    ensures |Encode(frames[0])| == frames[0].Length()
    ensures TotalLength(frames) == frames[0].Length() + TotalLength(frames[1..])
  {
  }

  function TotalLength(frames: seq<Frame>): nat
  {
    if |frames| == 0 then 0 else frames[0].Length() + TotalLength(frames[1..])
  }

  lemma {:induction false} TotalLengthAppend(xs: seq<Frame>, ys: seq<Frame>)
    ensures TotalLength(xs + ys) == TotalLength(xs) + TotalLength(ys)
  {
    if |xs| == 0 {
      assert xs + ys == ys;
    } else {
      assert (xs + ys)[1..] == xs[1..] + ys;
      TotalLengthAppend(xs[1..], ys);
    }
  }

  lemma {:induction false} EncodeAllAppend(xs: seq<Frame>, ys: seq<Frame>)
    ensures EncodeAll(xs + ys) == EncodeAll(xs) + EncodeAll(ys)
  {
    if |xs| == 0 {
      assert xs + ys == ys;
    } else {
      assert (xs + ys)[1..] == xs[1..] + ys;
      EncodeAllAppend(xs[1..], ys);
    }
  }

  /** The payloads of the frames whose type hash is `hash`, in log order. */
  function PayloadsFor(frames: seq<Frame>, hash: int32): seq<byte>
  {
    if |frames| == 0 then []
    else (if frames[0].t.hash == hash then frames[0].Payload() else []) + PayloadsFor(frames[1..], hash)
  }

  /** Some frame carries at least one payload byte for `hash`. */
  predicate HasPayloadFor(frames: seq<Frame>, hash: int32)
  {
    exists i :: 0 <= i < |frames| && frames[i].t.hash == hash && |frames[i].Payload()| > 0
  }

  lemma {:induction false} PayloadsForNonEmpty(frames: seq<Frame>, hash: int32)
    ensures |PayloadsFor(frames, hash)| > 0 <==> HasPayloadFor(frames, hash)
  {
    if |frames| > 0 {
      PayloadsForNonEmpty(frames[1..], hash);
      if HasPayloadFor(frames[1..], hash) {
        var i :| 0 <= i < |frames[1..]| && frames[1..][i].t.hash == hash && |frames[1..][i].Payload()| > 0;
        assert frames[i + 1] == frames[1..][i];
      }
      if HasPayloadFor(frames, hash) && !(frames[0].t.hash == hash && |frames[0].Payload()| > 0) {
        var i :| 0 <= i < |frames| && frames[i].t.hash == hash && |frames[i].Payload()| > 0;
        assert i > 0 && frames[1..][i - 1] == frames[i];
      }
    }
  }
}

=== FILE: group.dfy ===
/**
  The event system group as a whole: the shared log the messenger writes to,
  the type slot table, the consumer bindings and the `_init` flag, with the
  two entry points `OnStartRunning` and `OnUpdate`.
 */
module Group {
  import opened Bytes
  import opened Wrappers
  import opened Frames
  import opened SlotTable
  import opened EventSystem
  import opened Registry
  import opened Messenger
  import opened Drain
  import opened Dispatcher

  /** The capacity the shared log is created with. */
  const InitialLogCapacity: nat := 1024

  datatype Group = Group(log: SharedLog, table: Table, bindings: seq<Binding>, initialized: bool)
  {
    /** The log fits its memory, every slot holds whole elements within its capacity, and every binding has its slot. */
    predicate Valid()
    {
      log.Valid() && AllValid(table) && Bound(bindings, table)
    }

    /** Between ticks: nothing sent yet, every slot empty. */
    predicate Idle()
    {
      Valid() && log.length == 0 && forall h :: h in table ==> table[h].data == []
    }
  }

  /** `OnCreate`: an empty log of the initial capacity, no slots, no bindings, not started. */
  function Create(): (g: Group)
    ensures g.Idle() && !g.initialized
    ensures g.log.Capacity() == InitialLogCapacity && g.table == map[] && g.bindings == []
  {
    Group(SharedLog(seq(InitialLogCapacity, _ => 0), 0), map[], [], false)
  }

  /** Every binding's hash is among the hashes of the bindings. */
  lemma HashesContain(bindings: seq<Binding>)
    ensures forall k :: 0 <= k < |bindings| ==> bindings[k].hash in Hashes(bindings)
  {
  }

  /**
    `OnStartRunning`: does nothing once the group has started; the first time,
    registers the event systems of the update list, or reports the first
    event system whose message type cannot be found or which, being managed,
    is no `EventSystemBase`.
   */
  function StartRunning(g: Group, systems: seq<SystemInfo>): (r: Result<Group, RegistrationError>)
    requires g.Valid()
    ensures g.initialized ==> r == Success(g)
    ensures !g.initialized ==> (r.Success? <==> AllResolve(systems))
    ensures r.Success? ==> r.value.Valid() && r.value.initialized && r.value.log == g.log
    ensures r.Success? && !g.initialized ==>
              |r.value.bindings| == |EventSystems(systems)| && r.value.table.Keys >= g.table.Keys
    ensures r.Success? ==> forall h :: h in g.table ==> h in r.value.table && r.value.table[h] == g.table[h]
    ensures r.Success? && g.Idle() ==> r.value.Idle()
  {
    if g.initialized then Success(g)
    else match Register(systems, g.table)
      case Failure(e) => Failure(e)
      case Success(reg) =>
        RegisterTable(systems, g.table);
        RegisterValid(systems, g.table);
        HashesContain(reg.bindings);
        Success(Group(g.log, reg.table, reg.bindings, true))
  }

  /** A tick: the group afterwards, the consumer updates in order, and the drain error that aborted it, if any. */
  datatype Tick = Tick(group: Group, updates: seq<Update>, error: Option<DrainError>)

  /** The dispatch keeps every binding on its slot. */
  lemma DispatchBound(bindings: seq<Binding>, table: Table, table': Table)
    requires Bound(bindings, table) && AllValid(table) && table'.Keys == table.Keys
    ensures Bound(Dispatch(bindings, table).bindings, table')
  {
    forall k | 0 <= k < |bindings| ensures Dispatch(bindings, table).bindings[k].hash in table' {
      DispatchBinding(bindings, table, k);
    }
  }

  /**
    `OnUpdate`. An empty log is left alone. Otherwise the log is drained into
    the slots; a frame of an unregistered type aborts the tick before any
    consumer runs, leaving the log and the payloads appended so far in place.
    A complete drain is followed by the dispatch, and then the log and every
    slot are emptied.
   */
  function OnUpdate(g: Group): (r: Tick)
    requires g.Valid()
    ensures r.group.Valid() && r.group.initialized == g.initialized
    ensures r.group.table.Keys == g.table.Keys && |r.group.bindings| == |g.bindings|
    ensures g.log.length == 0 ==> r == Tick(g, [], None)
    ensures r.error.Some? ==> r.updates == [] && r.group.log == g.log && r.group.bindings == g.bindings
    ensures r.error.None? ==> r.group.log.length == 0 && r.group.log.mem == g.log.mem
    ensures g.log.length > 0 && r.error.None? ==> r.group.Idle()
  {
    if g.log.length == 0 then Tick(g, [], None)
    else
      var drained := DrainLog(g.log.Contents(), g.table);
      DrainValid(g.log.Contents(), g.table);
      match drained.error
      case Some(e) => Tick(g.(table := drained.table), [], Some(e))
      case None =>
        var d := Dispatch(g.bindings, drained.table);
        var cleared := ClearAll(drained.table);
        DispatchBound(g.bindings, drained.table, cleared);
        Tick(Group(g.log.(length := 0), cleared, d.bindings, g.initialized), d.updates, None)
  }

  /** The group after the frames were sent, one `Send` or `SendRange` each, in reservation order. */
  function SendAllTo(g: Group, frames: seq<Frame>): (r: Group)
    requires g.Valid() && AllWellSized(frames)
    requires g.log.length + TotalLength(frames) <= g.log.Capacity()
    ensures r.Valid() && r.table == g.table && r.bindings == g.bindings
  {
    g.(log := SendAll(g.log, frames).log)
  }

  /** A frame has a non-zero length, so only no frames make an empty log. */
  lemma TotalLengthZero(frames: seq<Frame>)
    ensures TotalLength(frames) == 0 <==> |frames| == 0
  {
    if |frames| > 0 {
      assert TotalLength(frames) >= frames[0].Length() >= HeaderSize;
    }
  }

  /** From an idle group, the drained table holds in each slot exactly the payloads sent for its hash. */
  lemma {:induction false} IdleDrainContents(g: Group, frames: seq<Frame>, h: int32)
    requires g.Idle() && FramesRegistered(frames, g.table) && h in g.table
    ensures AppendFrames(g.table, frames)[h].data == PayloadsFor(frames, h)
  {
    AppendFramesContents(g.table, frames, h);
  }

  /** Sends into an idle group leave exactly their frames in the log. */
  lemma SentContents(g: Group, frames: seq<Frame>)
    requires g.Idle() && AllWellSized(frames) && TotalLength(frames) <= g.log.Capacity()
    ensures SendAllTo(g, frames).log.Contents() == EncodeAll(frames)
    ensures SendAllTo(g, frames).log.length == TotalLength(frames)
  {
    SendAllContents(g.log, frames);
    assert g.log.Contents() == [];
  }

  /**
    One tick after sends into an idle group: the drain succeeds, the group is
    idle again, and the dispatch runs over a table whose slots hold what was
    sent for them.
   */
  lemma {:induction false} TickAfterSends(g: Group, frames: seq<Frame>)
    requires g.Idle() && FramesRegistered(frames, g.table) && AllWellSized(frames)
    requires TotalLength(frames) <= g.log.Capacity()
    ensures var r := OnUpdate(SendAllTo(g, frames));
            && r.error.None?
            && r.group.Idle()
            && r.updates == Dispatch(g.bindings, AppendFrames(g.table, frames)).updates
            && r.group.bindings == Dispatch(g.bindings, AppendFrames(g.table, frames)).bindings
  {
    SentContents(g, frames);
    TotalLengthZero(frames);
    if |frames| == 0 {
      DispatchNothingPending(g.bindings, g.table);
    } else {
      DrainEncoded(frames, g.table);
    }
  }

  /** A binding's consumer is updated in the tick exactly when some frame sent for its hash carried bytes. */
  lemma PendingAfterSends(g: Group, frames: seq<Frame>, k: nat)
    requires g.Idle() && FramesRegistered(frames, g.table) && k < |g.bindings|
    ensures Pending(g.bindings[k], AppendFrames(g.table, frames)) <==> HasPayloadFor(frames, g.bindings[k].hash)
  {
    IdleDrainContents(g, frames, g.bindings[k].hash);
    PayloadsForNonEmpty(frames, g.bindings[k].hash);
  }

  /** The messages the frames of hash `h` carry, frame by frame in log order, each frame's elements in order. */
  function ElementsFor(frames: seq<Frame>, h: int32): seq<seq<byte>>
  {
    if |frames| == 0 then []
    else
      var f := frames[0];
      var own := if f.t.hash != h then [] else match f
        case Single(_, m) => [m]
        case Multi(t, _, p) => Messages(p, t.size);
      own + ElementsFor(frames[1..], h)
  }

  /** A well-sized frame's payload is whole elements of its type. */
  lemma PayloadWhole(f: Frame)
    requires f.WellSized()
    ensures |f.Payload()| % f.t.size == 0
  {
    match f
    case Single(t, m) =>
      DivModUnique(|m|, t.size, 1, 0);
    case Multi(t, c, p) =>
      TimesIsProduct(t.size, c);
      DivModUnique(|p|, t.size, c, 0);
  }

  /** The elements a single frame contributes are its payload viewed as elements. */
  lemma OwnElements(f: Frame)
    requires f.WellSized()
    ensures Messages(f.Payload(), f.t.size) == match f
      case Single(_, m) => [m]
      case Multi(t, _, p) => Messages(p, t.size)
  {
    if f.Single? {
      var m := f.message;
      assert Messages(m[f.t.size..], f.t.size) == [];
      assert m[..f.t.size] == m;
    }
  }

  /**
    Viewing the payloads gathered for `h` as elements of `h`'s size gives back
    every message sent with that type, in send order, whether it was sent
    alone or in a batch.
   */
  lemma {:induction false} MessagesOfPayloads(frames: seq<Frame>, h: int32, size: pos)
    requires AllWellSized(frames)
    requires forall i :: 0 <= i < |frames| && frames[i].t.hash == h ==> frames[i].t.size == size
    ensures Messages(PayloadsFor(frames, h), size) == ElementsFor(frames, h)
    decreases |frames|
  {
    if |frames| == 0 {
      assert Messages([], size) == [];
    } else {
      var f := frames[0];
      var rest := frames[1..];
      assert forall i :: 0 <= i < |rest| ==> rest[i] == frames[i + 1];
      MessagesOfPayloads(rest, h, size);
      var own := if f.t.hash == h then f.Payload() else [];
      assert PayloadsFor(frames, h) == own + PayloadsFor(rest, h);
      if f.t.hash == h {
        PayloadWhole(f);
        OwnElements(f);
      } else {
        assert Messages([], size) == [];
      }
      MessagesAppend(own, PayloadsFor(rest, h), size);
    }
  }

  /**
    What a consumer of a type that was sent is handed: a managed or
    multi-value consumer sees every message sent with its type, in send order;
    a single-value consumer sees the first.
   */
  lemma DeliverSent(g: Group, frames: seq<Frame>, b: Binding)
    requires g.Idle() && FramesRegistered(frames, g.table) && AllWellSized(frames)
    requires b.hash in g.table && HasPayloadFor(frames, b.hash)
    ensures var slot := AppendFrames(g.table, frames)[b.hash];
            var all := ElementsFor(frames, b.hash);
            && slot.Whole() && |slot.data| > 0 && |all| > 0
            && (b.isManaged ==> Deliver(b, slot) == ManagedView(all))
            && (IsMulti(b) ==> Deliver(b, slot) == BoundArray(b.fieldOffset, all))
            && (!b.isManaged && b.fieldOffset != -1 && b.isSingle ==> Deliver(b, slot) == CopiedValue(b.fieldOffset, all[0]))
  {
    var filled := AppendFrames(g.table, frames);
    var size := g.table[b.hash].size;
    IdleDrainContents(g, frames, b.hash);
    PayloadsForNonEmpty(frames, b.hash);
    MessagesOfPayloads(frames, b.hash, size);
    var slot := filled[b.hash];
    WholeNonEmpty(slot);
    MessagesElement(slot.data, size, 0);
  }

  /**
    End to end: after sends into an idle group, the `i`-th consumer updated
    in the tick is the `i`-th binding whose type was sent, and it is handed
    what `DeliverSent` describes.
   */
  lemma TickDelivers(g: Group, frames: seq<Frame>, i: nat)
    requires g.Idle() && FramesRegistered(frames, g.table) && AllWellSized(frames)
    requires TotalLength(frames) <= g.log.Capacity()
    requires i < |PendingIndices(g.bindings, AppendFrames(g.table, frames))|
    ensures var r := OnUpdate(SendAllTo(g, frames));
            var slots := AppendFrames(g.table, frames);
            var b := g.bindings[PendingIndices(g.bindings, slots)[i]];
            && HasPayloadFor(frames, b.hash)
            && i < |r.updates|
            && r.updates[i] == Update(b.system, Deliver(b, slots[b.hash]))
  {
    var filled := AppendFrames(g.table, frames);
    var k := PendingIndices(g.bindings, filled)[i];
    TickAfterSends(g, frames);
    DispatchUpdates(g.bindings, filled, i);
    PendingAfterSends(g, frames, k);
  }

  /**
    A frame of a type nobody consumes, sent after frames of registered types:
    the tick stops at it with `Unregistered`, updates no consumer, keeps the
    log, and leaves the earlier frames' payloads in their slots.
   */
  lemma TickAborts(g: Group, good: seq<Frame>, bad: Frame)
    requires g.Idle() && FramesRegistered(good, g.table) && AllWellSized(good + [bad])
    requires bad.t.hash !in g.table
    requires TotalLength(good + [bad]) <= g.log.Capacity()
    ensures var sent := SendAllTo(g, good + [bad]);
            var r := OnUpdate(sent);
            && r.error == Some(Unregistered(bad.t.hash))
            && r.updates == []
            && r.group.log == sent.log
            && r.group.table == AppendFrames(g.table, good)
  {
    var frames := good + [bad];
    assert forall i :: 0 <= i < |good| ==> good[i] == frames[i];
    SentContents(g, frames);
    TotalLengthZero(frames);
    EncodeAllAppend(good, [bad]);
    assert EncodeAll([bad]) == Encode(bad) + [] by {
      assert [bad][1..] == [];
    }
    DrainUnregistered(good, bad, [], g.table);
  }
}

=== FILE: messenger.dfy ===
/**
  The producer side of the bus: `Messenger.Send` and the three `SendRange`
  overloads.

  Every call first reserves its whole frame at the end of the shared byte log
  (one atomic add to the log's length) and only then copies the frame into the
  reserved bytes. Reservations are modelled in the order the atomic adds took
  effect, which turns any interleaving of producers into a sequence of calls.
 */
module Messenger {
  import opened Bytes
  import opened Wrappers
  import opened Frames

  /**
    The `NativeList<byte>` behind the messenger's parallel writer: its backing
    memory (whose length is the capacity) and its logical length `m_length`.
   */
  datatype SharedLog = SharedLog(mem: seq<byte>, length: nat)
  {
    predicate Valid()
    {
      length <= |mem| <= Int32Max
    }

    function Capacity(): nat
    {
      |mem|
    }

    /** The bytes the drain pass will read. */
    function Contents(): seq<byte>
      requires Valid()
    {
      mem[..length]
    }
  }

  /** One `UnsafeUtility.MemCpy` of `bytes` to `mem + at`. */
  datatype Write = Write(at: nat, bytes: seq<byte>)
  {
    function End(): nat
    {
      at + |bytes|
    }
  }

  function ApplyWrite(mem: seq<byte>, w: Write): (r: seq<byte>)
    requires w.End() <= |mem|
    ensures |r| == |mem|
  {
    mem[..w.at] + w.bytes + mem[w.End()..]
  }

  /** A copy puts its bytes at its offset and leaves the bytes before and after it alone. */
  lemma ApplyWriteSlices(mem: seq<byte>, w: Write)
    requires w.End() <= |mem|
    ensures var r := ApplyWrite(mem, w);
            && r[..w.at] == mem[..w.at]
            && r[w.at..w.End()] == w.bytes
            && r[w.End()..] == mem[w.End()..]
            && (forall i :: 0 <= i < |mem| && !(w.at <= i < w.End()) ==> r[i] == mem[i])
            && (forall i :: w.at <= i < w.End() ==> r[i] == w.bytes[i - w.at])
  {
  }

  /** No copy runs past the backing memory. */
  predicate InBounds(ws: seq<Write>, capacity: nat)
  {
    forall i :: 0 <= i < |ws| ==> ws[i].End() <= capacity
  }

  /** Every copy writes only bytes in `[lo, hi)`. */
  predicate Inside(ws: seq<Write>, lo: int, hi: int)
  {
    forall k :: 0 <= k < |ws| ==> lo <= ws[k].at && ws[k].End() <= hi
  }

  /** Some copy writes the byte at position `i`. */
  predicate Touches(ws: seq<Write>, i: int)
  {
    exists k :: 0 <= k < |ws| && ws[k].at <= i < ws[k].End()
  }

  /** Two copies, the second starting where the first ends, are one copy of both. */
  lemma AdjacentWrites(mem: seq<byte>, at: nat, p: seq<byte>, q: seq<byte>)
    requires at + |p| + |q| <= |mem|
    ensures ApplyWrite(ApplyWrite(mem, Write(at, p)), Write(at + |p|, q)) == ApplyWrite(mem, Write(at, p + q))
  {
    var mem1 := ApplyWrite(mem, Write(at, p));
    ApplyWriteSlices(mem, Write(at, p));
    assert mem1[..at + |p|] == mem[..at] + p;
    assert mem1[at + |p| + |q|..] == mem[at + |p| + |q|..];
  }

  /** Where a call's frame goes in the log, and the log afterwards. */
  datatype Reservation = Reservation(idx: nat, log: SharedLog)

  /**
    `Interlocked.Add(ref m_length, length) - length`: grows the logical length
    by `length` and hands back the length it had before. The backing memory is
    never grown here: it must already hold the frame.
   */
  function Reserve(log: SharedLog, length: nat): (r: Reservation)
    requires log.Valid() && log.length + length <= log.Capacity()
    ensures r.log.Valid()
    ensures r.idx + length == r.log.length
    ensures r.log.Contents()[..r.idx] == log.Contents()
    ensures r.log.mem == log.mem
  {
    Reservation(log.length, SharedLog(log.mem, log.length + length))
  }

  /** A frame copied into the log at `idx`: the log gains exactly those bytes there. */
  lemma FrameCopied(log: SharedLog, idx: nat, frame: seq<byte>)
    requires log.Valid() && idx + |frame| == log.length
    ensures var mem := ApplyWrite(log.mem, Write(idx, frame));
            && mem[..log.length] == log.mem[..idx] + frame
            && mem[log.length..] == log.mem[log.length..]
  {
    ApplyWriteSlices(log.mem, Write(idx, frame));
  }

  /**
    `Messenger.Send<T>`: reserves `HeaderSize + sizeof(T)` bytes and writes a
    header with no flags and `T`'s hash, then the message. The log gains exactly
    that frame at its old end; no byte outside the reservation changes.
   */
  function Send(log: SharedLog, t: MessageType, message: seq<byte>): (r: Reservation)
    requires log.Valid() && |message| == t.size
    requires log.length + HeaderSize + t.size <= log.Capacity()
    ensures r.log.Valid()
    ensures r.idx == log.length && r.log.length == log.length + HeaderSize + t.size
    ensures r.log.Contents() == log.Contents() + Encode(Single(t, message))
    ensures r.log.mem[r.log.length..] == log.mem[r.log.length..]
  {
    var res := Reserve(log, HeaderSize + t.size);
    var header := EncodeHeader(Header(NoFlags, t.hash));
    var mem := ApplyWrite(res.log.mem, Write(res.idx, header));
    var mem' := ApplyWrite(mem, Write(res.idx + HeaderSize, message));
    AdjacentWrites(res.log.mem, res.idx, header, message);
    FrameCopied(res.log, res.idx, header + message);
    Reservation(res.idx, SharedLog(mem', res.log.length))
  }

  /**
    `Messenger.SendRange<T>(T*, int)`, with the count written as 4 bytes:
    reserves `HeaderSize + 4 + sizeof(T) * count` bytes and writes a `Multi`
    header, the count and the elements.
   */
  function SendRange(log: SharedLog, t: MessageType, count: int32, payload: seq<byte>): (r: Reservation)
    requires log.Valid() && 0 <= count && |payload| == t.size * count
    requires log.length + HeaderSize + CountSize + |payload| <= log.Capacity()
    ensures r.log.Valid()
    ensures r.idx == log.length && r.log.length == log.length + HeaderSize + CountSize + |payload|
    ensures r.log.Contents() == log.Contents() + Encode(Multi(t, count, payload))
    ensures r.log.mem[r.log.length..] == log.mem[r.log.length..]
  {
    var res := Reserve(log, HeaderSize + CountSize + |payload|);
    var header := EncodeHeader(Header(MultiFlag, t.hash));
    var c := EncodeInt32(count);
    var mem := ApplyWrite(res.log.mem, Write(res.idx, header));
    var mem' := ApplyWrite(mem, Write(res.idx + HeaderSize, c));
    var mem'' := ApplyWrite(mem', Write(res.idx + HeaderSize + CountSize, payload));
    AdjacentWrites(res.log.mem, res.idx, header, c);
    AdjacentWrites(res.log.mem, res.idx, header + c, payload);
    FrameCopied(res.log, res.idx, header + c + payload);
    Reservation(res.idx, SharedLog(mem'', res.log.length))
  }

  /**
    The `NativeArray<T>` and `NativeList<T>` overloads of `SendRange`: the
    pointer overload called with the collection's elements and `Length`.
   */
  function SendRangeElements(log: SharedLog, t: MessageType, elements: seq<seq<byte>>): (r: Reservation)
    requires log.Valid() && AllOfSize(elements, t.size) && |elements| <= Int32Max
    requires log.length + HeaderSize + CountSize + t.size * |elements| <= log.Capacity()
    ensures r.log.Valid() && r.idx == log.length
    ensures r.log.length == log.length + HeaderSize + CountSize + t.size * |elements|
    ensures r.log.Contents() == log.Contents() + Encode(Multi(t, |elements|, Flatten(elements)))
    ensures r.log.mem[r.log.length..] == log.mem[r.log.length..]
  {
    FlattenLength(elements, t.size);
    SendRange(log, t, |elements|, Flatten(elements))
  }

  /**
    The copies of `SendRange` as written: the count is copied with `headerSize`
    bytes taken from `&count`, so the four count bytes are followed by `spill`,
    whatever the byte after `count` holds.
   */
  function SendRangeAsWrittenWrites(idx: nat, t: MessageType, count: int32, payload: seq<byte>, spill: seq<byte>): seq<Write>
  {
    [ Write(idx, EncodeHeader(Header(MultiFlag, t.hash))),
      Write(idx + HeaderSize, EncodeInt32(count) + spill),
      Write(idx + HeaderSize + CountSize, payload) ]
  }

  /** `SendRange` as written; `None` when its count copy runs off the backing memory. */
  function SendRangeAsWritten(log: SharedLog, t: MessageType, count: int32, payload: seq<byte>, spill: seq<byte>)
    : (r: Option<Reservation>)
    requires log.Valid() && 0 <= count && |payload| == t.size * count
    requires |spill| == HeaderSize - CountSize
    requires log.length + HeaderSize + CountSize + |payload| <= log.Capacity()
    ensures r.Some? ==> r.value.idx == log.length
    ensures r.None? <==> log.length + HeaderSize + HeaderSize > log.Capacity()
  {
    var res := Reserve(log, HeaderSize + CountSize + |payload|);
    var ws := SendRangeAsWrittenWrites(res.idx, t, count, payload, spill);
    assert InBounds(ws, |res.log.mem|) <==> res.idx + HeaderSize + HeaderSize <= |res.log.mem| by {
      assert ws[1].End() == res.idx + HeaderSize + HeaderSize;
    }
    if InBounds(ws, |res.log.mem|) then
      var mem := ApplyWrite(ApplyWrite(ApplyWrite(res.log.mem, ws[0]), ws[1]), ws[2]);
      Some(Reservation(res.idx, SharedLog(mem, res.log.length)))
    else None
  }

  /** A spilled byte that the payload copy lands on afterwards is overwritten. */
  lemma SpillOverwritten(mem: seq<byte>, at: nat, c: seq<byte>, spill: seq<byte>, payload: seq<byte>)
    requires |c| == CountSize && |spill| == HeaderSize - CountSize && |payload| > 0
    requires at + CountSize + |payload| <= |mem|
    ensures ApplyWrite(ApplyWrite(mem, Write(at, c + spill)), Write(at + CountSize, payload))
         == ApplyWrite(ApplyWrite(mem, Write(at, c)), Write(at + CountSize, payload))
  {
    var a1 := ApplyWrite(mem, Write(at, c + spill));
    var b1 := ApplyWrite(mem, Write(at, c));
    var a := ApplyWrite(a1, Write(at + CountSize, payload));
    var b := ApplyWrite(b1, Write(at + CountSize, payload));
    ApplyWriteSlices(mem, Write(at, c + spill));
    ApplyWriteSlices(mem, Write(at, c));
    ApplyWriteSlices(a1, Write(at + CountSize, payload));
    ApplyWriteSlices(b1, Write(at + CountSize, payload));
    assert |a| == |b|;
    forall i | 0 <= i < |a|
      ensures a[i] == b[i]
    {
      if i < at || i >= at + CountSize + |payload| {
      } else if i < at + CountSize {
        assert a[i] == (c + spill)[i - at] == c[i - at] == b[i];
      }
    }
  }

  /** With at least one payload byte, `SendRange` as written has exactly the intended effect. */
  lemma SendRangeAsWrittenAgrees(log: SharedLog, t: MessageType, count: int32, payload: seq<byte>, spill: seq<byte>)
    requires log.Valid() && 0 <= count && |payload| == t.size * count
    requires |spill| == HeaderSize - CountSize
    requires log.length + HeaderSize + CountSize + |payload| <= log.Capacity()
    requires |payload| > 0
    ensures SendRangeAsWritten(log, t, count, payload, spill) == Some(SendRange(log, t, count, payload))
  {
    var res := Reserve(log, HeaderSize + CountSize + |payload|);
    var idx := res.idx;
    var mem := res.log.mem;
    var ws := SendRangeAsWrittenWrites(idx, t, count, payload, spill);
    assert InBounds(ws, |mem|) by {
      assert ws[1].End() == idx + HeaderSize + HeaderSize;
    }
    var m0 := ApplyWrite(mem, ws[0]);
    SpillOverwritten(m0, idx + HeaderSize, EncodeInt32(count), spill, payload);
  }

  /**
    The count copy always writes the byte at `idx + HeaderSize + CountSize`;
    the copies stay inside the reserved frame exactly when the payload is
    non-empty. With `count == 0` the spilled byte is the first one past the frame.
   */
  lemma SendRangeAsWrittenFootprint(idx: nat, t: MessageType, count: int32, payload: seq<byte>, spill: seq<byte>)
    requires |spill| == HeaderSize - CountSize
    ensures var ws := SendRangeAsWrittenWrites(idx, t, count, payload, spill);
            && Touches(ws, idx + HeaderSize + CountSize)
            && (Inside(ws, idx, idx + HeaderSize + CountSize + |payload|) <==> |payload| > 0)
  {
    var ws := SendRangeAsWrittenWrites(idx, t, count, payload, spill);
    assert ws[1].at <= idx + HeaderSize + CountSize < ws[1].End();
  }

  /** A copy of no bytes changes nothing. */
  lemma EmptyWrite(mem: seq<byte>, at: nat)
    requires at <= |mem|
    ensures ApplyWrite(mem, Write(at, [])) == mem
  {
    assert mem[..at] + [] + mem[at..] == mem;
  }

  /** An empty batch as written ends the log right after its frame and leaves the spilled byte there. */
  lemma EmptySendRangeAsWritten(log: SharedLog, t: MessageType, spill: seq<byte>)
    requires log.Valid() && |spill| == HeaderSize - CountSize
    requires log.length + HeaderSize + HeaderSize <= log.Capacity()
    ensures var r := SendRangeAsWritten(log, t, 0, [], spill);
            && r.Some?
            && r.value.log.length == log.length + HeaderSize + CountSize
            && r.value.log.mem[r.value.log.length] == spill[0]
  {
    var r := SendRangeAsWritten(log, t, 0, [], spill);
    var idx := log.length;
    var end := idx + HeaderSize + CountSize;
    var ws := SendRangeAsWrittenWrites(idx, t, 0, [], spill);
    assert InBounds(ws, |log.mem|) by {
      assert ws[1].End() == idx + HeaderSize + HeaderSize;
    }
    var m1 := ApplyWrite(log.mem, ws[0]);
    var m2 := ApplyWrite(m1, ws[1]);
    var m3 := ApplyWrite(m2, ws[2]);
    assert r == Some(Reservation(idx, SharedLog(m3, end)));
    assert m2[end] == spill[0] by {
      ApplyWriteSlices(m1, ws[1]);
      assert m2[end] == (EncodeInt32(0) + spill)[CountSize];
    }
    EmptyWrite(m2, end);
  }

  /**
    The input that shows the overrun: an empty batch sent into a log with room
    for its frame and one byte more leaves the spilled byte just past the new
    end of the log, where the correct `SendRange` leaves the memory untouched.
   */
  lemma EmptySendRangeSpills(log: SharedLog, t: MessageType, spill: seq<byte>)
    requires log.Valid() && |spill| == HeaderSize - CountSize
    requires log.length + HeaderSize + HeaderSize <= log.Capacity()
    ensures var r := SendRangeAsWritten(log, t, 0, [], spill);
            && r.Some?
            && r.value.log.mem[r.value.log.length] == spill[0]
            && SendRange(log, t, 0, []).log.mem[r.value.log.length] == log.mem[r.value.log.length]
  {
    EmptySendRangeAsWritten(log, t, spill);
    var s := SendRange(log, t, 0, []);
    var end := log.length + HeaderSize + CountSize;
    assert s.log.length == end;
    assert s.log.mem[end..][0] == log.mem[end..][0];
  }

  /** Sends one frame through the overload that produces it. */
  function SendFrame(log: SharedLog, f: Frame): (r: Reservation)
    requires log.Valid() && f.WellSized() && log.length + f.Length() <= log.Capacity()
    ensures r.log.Valid()
    ensures r.idx == log.length && r.log.length == log.length + f.Length()
    ensures r.log.Contents() == log.Contents() + Encode(f)
    ensures r.log.mem[r.log.length..] == log.mem[r.log.length..]
  {
    match f
    case Single(t, m) => Send(log, t, m)
    case Multi(t, c, p) =>
      TimesIsProduct(t.size, c);
      SendRange(log, t, c, p)
  }

  /** The log after a sequence of sends, and the offset each send reserved. */
  datatype Sent = Sent(log: SharedLog, offsets: seq<nat>)

  /**
    Sends the frames one after another in reservation order. The frames end
    up end to end after the old contents, each at the old length plus the
    lengths of the frames before it.
   */
  function SendAll(log: SharedLog, frames: seq<Frame>): (r: Sent)
    requires log.Valid() && AllWellSized(frames)
    requires log.length + TotalLength(frames) <= log.Capacity()
    ensures r.log.Valid()
    ensures r.log.length == log.length + TotalLength(frames)
    ensures |r.offsets| == |frames|
    decreases |frames|
  {
    if |frames| == 0 then Sent(log, [])
    else
      var first := SendFrame(log, frames[0]);
      var rest := SendAll(first.log, frames[1..]);
      Sent(rest.log, [first.idx] + rest.offsets)
  }

  /** The first send of a sequence, and the rest sent from the log it leaves. */
  lemma SendAllCons(log: SharedLog, frames: seq<Frame>)
    requires log.Valid() && AllWellSized(frames) && |frames| > 0
    requires log.length + TotalLength(frames) <= log.Capacity()
    ensures var first := SendFrame(log, frames[0]);
            && first.log.Contents() == log.Contents() + Encode(frames[0])
            && AllWellSized(frames[1..])
            && first.log.length + TotalLength(frames[1..]) <= first.log.Capacity()
            && SendAll(log, frames).log == SendAll(first.log, frames[1..]).log
  {
  }

  /** Sequential sends leave their frames end to end after the old contents, in call order. */
  lemma {:induction false} SendAllContents(log: SharedLog, frames: seq<Frame>)
    requires log.Valid() && AllWellSized(frames)
    requires log.length + TotalLength(frames) <= log.Capacity()
    ensures SendAll(log, frames).log.Contents() == log.Contents() + EncodeAll(frames)
    decreases |frames|
  {
    if |frames| > 0 {
      var first := SendFrame(log, frames[0]);
      var a, e, rest := log.Contents(), Encode(frames[0]), EncodeAll(frames[1..]);
      assert SendAll(log, frames).log.Contents() == (a + e) + rest by {
        SendAllCons(log, frames);
        SendAllContents(first.log, frames[1..]);
      }
      EncodeAllCons(frames);
      AppendTwice(a, e, rest, EncodeAll(frames));
    }
  }

  lemma TotalLengthCons(frames: seq<Frame>, i: nat)
    requires 0 < i <= |frames|
    ensures TotalLength(frames[..i]) == frames[0].Length() + TotalLength(frames[1..][..i - 1])
  {
    var p := frames[..i];
    assert p[0] == frames[0] && p[1..] == frames[1..][..i - 1];
  }

  /** Each send's frame starts at the old length plus the lengths of the frames sent before it. */
  lemma {:induction false} SendAllOffsets(log: SharedLog, frames: seq<Frame>, i: nat)
    requires log.Valid() && AllWellSized(frames)
    requires log.length + TotalLength(frames) <= log.Capacity()
    requires i < |frames|
    ensures SendAll(log, frames).offsets[i] == log.length + TotalLength(frames[..i])
    decreases |frames|
  {
    var first := SendFrame(log, frames[0]);
    var rest := SendAll(first.log, frames[1..]);
    assert SendAll(log, frames).offsets == [first.idx] + rest.offsets;
    if i > 0 {
      SendAllOffsets(first.log, frames[1..], i - 1);
      assert rest.offsets[i - 1] == first.log.length + TotalLength(frames[1..][..i - 1]);
      TotalLengthCons(frames, i);
    } else {
      assert frames[..0] == [];
    }
  }

  lemma {:induction false} TotalLengthPrefix(frames: seq<Frame>, i: nat, j: nat)
    requires i <= j <= |frames|
    ensures TotalLength(frames[..i]) + TotalLength(frames[i..j]) == TotalLength(frames[..j])
  {
    assert frames[..j] == frames[..i] + frames[i..j];
    TotalLengthAppend(frames[..i], frames[i..j]);
  }

  /** A later frame starts no earlier than an earlier frame ends. */
  lemma PrefixLengthsIncrease(frames: seq<Frame>, i: nat, j: nat)
    requires i < j <= |frames|
    ensures TotalLength(frames[..i]) + frames[i].Length() <= TotalLength(frames[..j])
  {
    TotalLengthPrefix(frames, i, j);
    var mid := frames[i..j];
    assert mid[0] == frames[i];
  }

  /**
    Reservations never overlap: the range `[offset, offset + length)` of an
    earlier send ends at or before the start of every later one.
   */
  lemma SendAllDisjoint(log: SharedLog, frames: seq<Frame>, i: nat, j: nat)
    requires log.Valid() && AllWellSized(frames)
    requires log.length + TotalLength(frames) <= log.Capacity()
    requires i < j < |frames|
    ensures var r := SendAll(log, frames);
            r.offsets[i] + frames[i].Length() <= r.offsets[j]
  {
    SendAllOffsets(log, frames, i);
    SendAllOffsets(log, frames, j);
    PrefixLengthsIncrease(frames, i, j);
  }
}

=== FILE: registry.dfy ===
/**
  Consumer registration (`OnStartRunning` of the event system group): each
  system of the group's update list that is an event system gets one binding,
  in update-list order, and the slot of its message type is reserved.

  The reflection the source uses is taken as given data: the interfaces a
  system type reports, and its instance fields with their `[Message]`
  attribute, type and byte offset.
 */
module Registry {
  import opened Bytes
  import opened Wrappers
  import opened Frames
  import opened SlotTable
  import opened EventSystem

  type SystemId = nat

  /** The declared type of a field: a message value, a native array of messages, or anything else. */
  datatype FieldType =
    | ValueOf(t: MessageType)
    | ArrayOf(t: MessageType)
    | OtherField(name: string)

  datatype FieldInfo = FieldInfo(hasMessageAttribute: bool, fieldType: FieldType, offset: nat)

  /**
    One entry of the update list: a managed class system or an unmanaged
    struct system. `derivesEventSystemBase` says whether a managed system's
    class derives from `EventSystemBase`; it is ignored for unmanaged systems.
   */
  datatype SystemInfo = SystemInfo(
    id: SystemId,
    isManaged: bool,
    derivesEventSystemBase: bool,
    interfaces: seq<Interface>,
    fields: seq<FieldInfo>)

  /**
    An `EventSystemHandle`. `fieldOffset` is -1 when the consumer has no
    `[Message]` field; `lastGen` is the slot generation the consumer was last
    bound to (`lastPtr`), `None` before the first binding.
   */
  datatype Binding = Binding(
    system: SystemId,
    isManaged: bool,
    hash: int32,
    isSingle: bool,
    fieldOffset: int,
    lastGen: Option<nat>)

  /**
    Why registration throws: `GetMessageType` finds no message type, or the
    cast of a managed event system to `EventSystemBase` fails.
   */
  datatype RegistrationError =
    | MissingMessageType(system: SystemId)
    | NotEventSystemBase(system: SystemId)

  /** `typeof(IEventSystem).IsAssignableFrom(systemType)`. */
  predicate IsEventSystem(s: SystemInfo)
  {
    exists i :: 0 <= i < |s.interfaces| && !s.interfaces[i].OtherInterface?
  }

  /**
    `GetMessageType`: the type argument of the first reported interface that
    is an event system interface other than the bare marker.
   */
  function GetMessageType(interfaces: seq<Interface>): (r: Option<MessageType>)
    ensures r.None? <==> forall i :: 0 <= i < |interfaces| ==> !interfaces[i].EventSystemOf?
    ensures r.Some? ==> exists i :: 0 <= i < |interfaces| && interfaces[i] == EventSystemOf(r.value)
                                    && forall j :: 0 <= j < i ==> !interfaces[j].EventSystemOf?
  {
    if |interfaces| == 0 then None
    else if interfaces[0].EventSystemOf? then Some(interfaces[0].t)
    else
      var r := GetMessageType(interfaces[1..]);
      assert r.Some? ==> exists i :: 0 < i < |interfaces| && interfaces[i] == EventSystemOf(r.value)
                                     && forall j :: 0 <= j < i ==> !interfaces[j].EventSystemOf? by {
        if r.Some? {
          var i :| 0 <= i < |interfaces[1..]| && interfaces[1..][i] == EventSystemOf(r.value)
                   && forall j :: 0 <= j < i ==> !interfaces[1..][j].EventSystemOf?;
          assert interfaces[i + 1] == EventSystemOf(r.value);
          assert forall j :: 0 < j < i + 1 ==> interfaces[j] == interfaces[1..][j - 1];
        }
      }
      assert (forall i :: 0 <= i < |interfaces[1..]| ==> !interfaces[1..][i].EventSystemOf?)
         ==> (forall i :: 0 <= i < |interfaces| ==> !interfaces[i].EventSystemOf?) by {
        forall i | 0 < i < |interfaces| ensures interfaces[i] == interfaces[1..][i - 1] { }
      }
      r
  }

  /**
    Whatever order the interfaces come in, a system that implements
    `IEventSystem<T>` for exactly one `T` resolves to `T`; in particular an
    `EventSystem<T>` resolves to `T`.
   */
  lemma GetMessageTypeResolves(interfaces: seq<Interface>, t: MessageType)
    requires exists i :: 0 <= i < |interfaces| && interfaces[i] == EventSystemOf(t)
    requires forall i :: 0 <= i < |interfaces| && interfaces[i].EventSystemOf? ==> interfaces[i].t == t
    ensures GetMessageType(interfaces) == Some(t)
  {
  }

  lemma EventSystemResolves(t: MessageType)
    ensures GetMessageType(EventSystemInterfaces(t)) == Some(t)
  {
    assert EventSystemInterfaces(t)[0] == EventSystemOf(t);
    GetMessageTypeResolves(EventSystemInterfaces(t), t);
  }

  /** The first field that carries `[Message]`, as the `foreach ... break` finds it. */
  function FirstMessageField(fields: seq<FieldInfo>): (r: Option<FieldInfo>)
    ensures r.None? <==> forall i :: 0 <= i < |fields| ==> !fields[i].hasMessageAttribute
    ensures r.Some? ==> exists i :: 0 <= i < |fields| && fields[i] == r.value && r.value.hasMessageAttribute
                                    && forall j :: 0 <= j < i ==> !fields[j].hasMessageAttribute
  {
    if |fields| == 0 then None
    else if fields[0].hasMessageAttribute then Some(fields[0])
    else
      var r := FirstMessageField(fields[1..]);
      assert r.Some? ==> exists i :: 0 < i < |fields| && fields[i] == r.value
                                     && forall j :: 0 <= j < i ==> !fields[j].hasMessageAttribute by {
        if r.Some? {
          var i :| 0 <= i < |fields[1..]| && fields[1..][i] == r.value
                   && forall j :: 0 <= j < i ==> !fields[1..][j].hasMessageAttribute;
          assert fields[i + 1] == r.value;
          assert forall j :: 0 < j < i + 1 ==> fields[j] == fields[1..][j - 1];
        }
      }
      assert (forall i :: 0 <= i < |fields[1..]| ==> !fields[1..][i].hasMessageAttribute)
         ==> (forall i :: 0 <= i < |fields| ==> !fields[i].hasMessageAttribute) by {
        forall i | 0 < i < |fields| ensures fields[i] == fields[1..][i - 1] { }
      }
      r
  }

  /**
    The binding registration records for system `s` consuming `t`. A managed
    system keeps `fieldOffset == -1` and `isSingle`; an unmanaged one takes the
    offset of its first `[Message]` field, and is single exactly when that
    field's type is the message type itself.
   */
  function BindingFor(s: SystemInfo, t: MessageType): (b: Binding)
    ensures b.system == s.id && b.isManaged == s.isManaged && b.hash == t.hash && b.lastGen.None?
    ensures s.isManaged ==> b.fieldOffset == -1 && b.isSingle
    ensures !s.isManaged ==> (b.fieldOffset == -1 <==> FirstMessageField(s.fields).None?)
    ensures !s.isManaged && FirstMessageField(s.fields).Some? ==>
              var f := FirstMessageField(s.fields).value;
              b.fieldOffset == f.offset && (b.isSingle <==> f.fieldType == ValueOf(t))
    ensures !s.isManaged && FirstMessageField(s.fields).None? ==> b.isSingle
  {
    var offsetAndSingle :=
      if s.isManaged then (-1, true)
      else match FirstMessageField(s.fields)
        case None => (-1, true)
        case Some(f) => (f.offset as int, f.fieldType == ValueOf(t));
    Binding(s.id, s.isManaged, t.hash, offsetAndSingle.1, offsetAndSingle.0, None)
  }

  /** The event systems of the update list, in update-list order. */
  function EventSystems(systems: seq<SystemInfo>): (r: seq<SystemInfo>)
    ensures forall k :: 0 <= k < |r| ==> IsEventSystem(r[k])
    ensures |r| <= |systems|
    decreases |systems|
  {
    if |systems| == 0 then []
    else (if IsEventSystem(systems[0]) then [systems[0]] else []) + EventSystems(systems[1..])
  }

  /** The loop keeps exactly the event systems of the update list. */
  lemma {:induction false} EventSystemsMembers(systems: seq<SystemInfo>)
    ensures forall k :: 0 <= k < |EventSystems(systems)| ==> EventSystems(systems)[k] in systems
    ensures forall i :: 0 <= i < |systems| && IsEventSystem(systems[i]) ==> systems[i] in EventSystems(systems)
    decreases |systems|
  {
    if |systems| > 0 {
      var tail := systems[1..];
      var head := if IsEventSystem(systems[0]) then [systems[0]] else [];
      EventSystemsMembers(tail);
      assert EventSystems(systems) == head + EventSystems(tail);
      forall i | 0 < i < |systems| && IsEventSystem(systems[i])
        ensures systems[i] in EventSystems(systems)
      {
        assert systems[i] == tail[i - 1];
      }
    }
  }

  /**
    The event systems keep update-list order: those of a concatenated list are
    the first part's followed by the second part's.
   */
  lemma {:induction false} EventSystemsAppend(a: seq<SystemInfo>, b: seq<SystemInfo>)
    ensures EventSystems(a + b) == EventSystems(a) + EventSystems(b)
    decreases |a|
  {
    if |a| > 0 {
      var head := if IsEventSystem(a[0]) then [a[0]] else [];
      assert (a + b)[0] == a[0] && (a + b)[1..] == a[1..] + b;
      assert EventSystems(a + b) == head + EventSystems(a[1..] + b);
      EventSystemsAppend(a[1..], b);
      assert EventSystems(a) == head + EventSystems(a[1..]);
    } else {
      assert a + b == b;
    }
  }

  /** A single system is kept exactly when it is an event system. */
  lemma EventSystemsSingle(s: SystemInfo)
    ensures EventSystems([s]) == if IsEventSystem(s) then [s] else []
  {
  }

  /** A managed event system whose class the registration cannot cast to `EventSystemBase`. */
  predicate CastFails(s: SystemInfo)
  {
    s.isManaged && !s.derivesEventSystemBase
  }

  /** The system is not an event system, or it names its message type and, when managed, is an `EventSystemBase`. */
  predicate Resolvable(s: SystemInfo)
  {
    IsEventSystem(s) ==> GetMessageType(s.interfaces).Some? && !CastFails(s)
  }

  /** The error registration raises at `s`, which is an event system that does not resolve. */
  function ErrorAt(s: SystemInfo): RegistrationError
  {
    if GetMessageType(s.interfaces).None? then MissingMessageType(s.id) else NotEventSystemBase(s.id)
  }

  predicate AllResolve(systems: seq<SystemInfo>)
  {
    forall i :: 0 <= i < |systems| ==> Resolvable(systems[i])
  }

  /** An event system together with the message type it consumes. */
  datatype Consumer = Consumer(system: SystemInfo, t: MessageType)

  /**
    One system of the update list: nothing for a system that is not an event
    system, its consumer for one that resolves, the error thrown otherwise.
   */
  function ConsumerOf(s: SystemInfo): (r: Result<seq<Consumer>, RegistrationError>)
    ensures r.Success? <==> Resolvable(s)
    ensures r.Success? && !IsEventSystem(s) ==> r.value == []
    ensures r.Success? && IsEventSystem(s) ==> r.value == [Consumer(s, GetMessageType(s.interfaces).value)]
    ensures r.Failure? ==> r.error == ErrorAt(s)
  {
    if !IsEventSystem(s) then Success([])
    else match GetMessageType(s.interfaces)
      case None => Failure(MissingMessageType(s.id))
      case Some(t) =>
        if CastFails(s) then Failure(NotEventSystemBase(s.id))
        else Success([Consumer(s, t)])
  }

  /**
    The first half of each iteration of the registration loop: keep the event
    systems and resolve their message types, failing at the first one that
    names none or, being managed, cannot be cast to `EventSystemBase`.
   */
  function Consumers(systems: seq<SystemInfo>): (r: Result<seq<Consumer>, RegistrationError>)
    ensures r.Success? <==> AllResolve(systems)
    ensures r.Success? ==> |r.value| == |EventSystems(systems)|
    decreases |systems|
  {
    if |systems| == 0 then Success([])
    else
      assert forall i :: 0 < i < |systems| ==> systems[i] == systems[1..][i - 1];
      match ConsumerOf(systems[0])
      case Failure(e) => Failure(e)
      case Success(head) =>
        var rest := Consumers(systems[1..]);
        if rest.Failure? then rest
        else Success(head + rest.value)
  }

  /** The `k`-th consumer is the `k`-th event system, with the message type `GetMessageType` finds for it. */
  lemma {:induction false} ConsumersAt(systems: seq<SystemInfo>, k: nat)
    requires Consumers(systems).Success? && k < |Consumers(systems).value|
    ensures var c := Consumers(systems).value[k];
            && c.system == EventSystems(systems)[k]
            && GetMessageType(c.system.interfaces) == Some(c.t)
    decreases |systems|
  {
    var s := systems[0];
    var tail := systems[1..];
    assert ConsumerOf(s).Success? && Consumers(tail).Success?;
    var head := ConsumerOf(s).value;
    var rest := Consumers(tail).value;
    assert Consumers(systems).value == head + rest;
    assert EventSystems(systems) == (if IsEventSystem(s) then [s] else []) + EventSystems(tail);
    if !IsEventSystem(s) {
      assert head == [];
      ConsumersAt(tail, k);
    } else if k > 0 {
      assert |head| == 1;
      ConsumersAt(tail, k - 1);
    }
  }

  /** `systems[i]` is the first system of the list that does not resolve. */
  predicate FirstUnresolved(systems: seq<SystemInfo>, i: int)
  {
    && 0 <= i < |systems| && !Resolvable(systems[i])
    && forall j :: 0 <= j < i ==> Resolvable(systems[j])
  }

  /**
    A failed registration stops at the first system that does not resolve,
    with the error the source throws there.
   */
  lemma {:induction false} ConsumersFailure(systems: seq<SystemInfo>)
    requires Consumers(systems).Failure?
    ensures exists i :: FirstUnresolved(systems, i) && Consumers(systems).error == ErrorAt(systems[i])
    decreases |systems|
  {
    var s := systems[0];
    var tail := systems[1..];
    if !Resolvable(s) {
      assert Consumers(systems) == Failure(ErrorAt(s));
      assert FirstUnresolved(systems, 0);
    } else {
      assert Consumers(systems).error == Consumers(tail).error;
      ConsumersFailure(tail);
      var i :| FirstUnresolved(tail, i) && Consumers(tail).error == ErrorAt(tail[i]);
      assert systems[i + 1] == tail[i];
      forall j | 0 <= j < i + 1 ensures Resolvable(systems[j]) {
        if j > 0 {
          assert systems[j] == tail[j - 1];
        }
      }
      assert FirstUnresolved(systems, i + 1);
    }
  }

  datatype Registered = Registered(bindings: seq<Binding>, table: Table)

  /**
    The second half of each iteration: reserve the consumer's slot and append
    its binding, in order.
   */
  function Bind(consumers: seq<Consumer>, table: Table): (r: Registered)
    ensures |r.bindings| == |consumers|
    ensures forall k :: 0 <= k < |consumers| ==>
              r.bindings[k] == BindingFor(consumers[k].system, consumers[k].t)
    decreases |consumers|
  {
    if |consumers| == 0 then Registered([], table)
    else
      var c := consumers[0];
      var reserved := ReserveDataSlot(table, c.t.hash, c.t);
      var rest := Bind(consumers[1..], reserved.table);
      Registered([BindingFor(c.system, c.t)] + rest.bindings, rest.table)
  }

  /** The registration loop over the whole update list. */
  function Register(systems: seq<SystemInfo>, table: Table): (r: Result<Registered, RegistrationError>)
    ensures r.Success? <==> AllResolve(systems)
    ensures r.Success? ==> |r.value.bindings| == |EventSystems(systems)|
  {
    match Consumers(systems)
    case Failure(e) => Failure(e)
    case Success(consumers) => Success(Bind(consumers, table))
  }

  /** The `k`-th binding belongs to the `k`-th event system and its message type. */
  lemma RegisterBinding(systems: seq<SystemInfo>, table: Table, k: nat)
    requires AllResolve(systems) && k < |EventSystems(systems)|
    ensures var s := EventSystems(systems)[k];
            && GetMessageType(s.interfaces).Some?
            && Register(systems, table).value.bindings[k] == BindingFor(s, GetMessageType(s.interfaces).value)
  {
    ConsumersAt(systems, k);
  }

  /**
    A failed registration names the first event system of the update list
    that either names no message type or is managed but no `EventSystemBase`.
   */
  lemma RegisterFailure(systems: seq<SystemInfo>, table: Table)
    requires !AllResolve(systems)
    ensures var e := Register(systems, table).error;
            exists i :: && FirstUnresolved(systems, i) && IsEventSystem(systems[i])
                        && (GetMessageType(systems[i].interfaces).None? || CastFails(systems[i]))
                        && e.system == systems[i].id
                        && (e.MissingMessageType? <==> GetMessageType(systems[i].interfaces).None?)
  {
    ConsumersFailure(systems);
  }

  /**
    After a successful registration every managed event system is an
    `EventSystemBase`, so the cast `OnUpdate` makes to rebind its buffer
    cannot fail.
   */
  lemma RegisteredManagedCast(systems: seq<SystemInfo>, k: nat)
    requires AllResolve(systems) && k < |EventSystems(systems)|
    ensures var s := EventSystems(systems)[k];
            s.isManaged ==> s.derivesEventSystemBase
  {
    EventSystemsMembers(systems);
  }

  /** The hashes the bindings consume. */
  function Hashes(bindings: seq<Binding>): set<int32>
  {
    set k | 0 <= k < |bindings| :: bindings[k].hash
  }

  lemma HashesCons(b: Binding, rest: seq<Binding>)
    ensures Hashes([b] + rest) == {b.hash} + Hashes(rest)
  {
    var bs := [b] + rest;
    forall h | h in Hashes(bs) ensures h in {b.hash} + Hashes(rest) {
      var k :| 0 <= k < |bs| && bs[k].hash == h;
      if k > 0 {
        assert bs[k] == rest[k - 1];
      }
    }
    forall h | h in Hashes(rest) ensures h in Hashes(bs) {
      var k :| 0 <= k < |rest| && rest[k].hash == h;
      assert bs[k + 1] == rest[k];
    }
    assert bs[0] == b;
  }

  /** Binding keys the table by the old hashes and the bindings' hashes. */
  lemma {:induction false} BindKeys(consumers: seq<Consumer>, table: Table)
    ensures var r := Bind(consumers, table);
            r.table.Keys == table.Keys + Hashes(r.bindings)
    decreases |consumers|
  {
    if |consumers| > 0 {
      var c := consumers[0];
      var reserved := ReserveDataSlot(table, c.t.hash, c.t);
      BindKeys(consumers[1..], reserved.table);
      HashesCons(BindingFor(c.system, c.t), Bind(consumers[1..], reserved.table).bindings);
    }
  }

  /** Binding never disturbs a slot that was already there. */
  lemma {:induction false} BindKeepsSlots(consumers: seq<Consumer>, table: Table)
    ensures var r := Bind(consumers, table);
            forall h :: h in table ==> h in r.table && r.table[h] == table[h]
    decreases |consumers|
  {
    if |consumers| > 0 {
      var c := consumers[0];
      var reserved := ReserveDataSlot(table, c.t.hash, c.t);
      BindKeepsSlots(consumers[1..], reserved.table);
    }
  }

  /** Every slot binding adds is empty. */
  lemma {:induction false} BindNewSlotsEmpty(consumers: seq<Consumer>, table: Table)
    ensures var r := Bind(consumers, table);
            forall h :: h in r.table && h !in table ==> r.table[h].data == [] && r.table[h].Valid() && r.table[h].Whole()
    decreases |consumers|
  {
    if |consumers| > 0 {
      var c := consumers[0];
      var reserved := ReserveDataSlot(table, c.t.hash, c.t);
      BindNewSlotsEmpty(consumers[1..], reserved.table);
      BindKeepsSlots(consumers[1..], reserved.table);
    }
  }

  /** Registration only adds empty slots, one per new hash, and never disturbs an existing slot. */
  lemma RegisterTable(systems: seq<SystemInfo>, table: Table)
    requires AllResolve(systems)
    ensures var r := Register(systems, table).value;
            && r.table.Keys == table.Keys + Hashes(r.bindings)
            && (forall h :: h in table ==> r.table[h] == table[h])
            && (forall h :: h in r.table && h !in table ==> r.table[h].data == [])
  {
    var cs := Consumers(systems).value;
    BindKeys(cs, table);
    BindKeepsSlots(cs, table);
    BindNewSlotsEmpty(cs, table);
  }

  /** Registration keeps every slot valid and holding whole elements. */
  lemma RegisterValid(systems: seq<SystemInfo>, table: Table)
    requires AllResolve(systems) && AllValid(table)
    ensures AllValid(Register(systems, table).value.table)
  {
    var cs := Consumers(systems).value;
    var r := Bind(cs, table);
    BindKeepsSlots(cs, table);
    BindNewSlotsEmpty(cs, table);
    forall h | h in r.table ensures r.table[h].Valid() && r.table[h].Whole() {
      if h in table {
        assert r.table[h] == table[h];
      }
    }
  }

  /** No hash is claimed by two message types of different sizes, among the consumers or in the table. */
  predicate SizesAgree(consumers: seq<Consumer>, table: Table)
  {
    && (forall i :: 0 <= i < |consumers| && consumers[i].t.hash in table ==>
          table[consumers[i].t.hash].size == consumers[i].t.size)
    && (forall i, j :: 0 <= i < |consumers| && 0 <= j < |consumers| && consumers[i].t.hash == consumers[j].t.hash ==>
          consumers[i].t.size == consumers[j].t.size)
  }

  /** Collision freedom carries over to the remaining consumers, against the table the first one reserved in. */
  lemma SizesAgreeTail(consumers: seq<Consumer>, table: Table)
    requires SizesAgree(consumers, table) && |consumers| > 0
    ensures var c := consumers[0];
            SizesAgree(consumers[1..], ReserveDataSlot(table, c.t.hash, c.t).table)
  {
    var c := consumers[0];
    var tail := consumers[1..];
    var reserved := ReserveDataSlot(table, c.t.hash, c.t).table;
    forall i | 0 <= i < |tail| && tail[i].t.hash in reserved
      ensures reserved[tail[i].t.hash].size == tail[i].t.size
    {
      assert tail[i] == consumers[i + 1];
    }
    forall i, j | 0 <= i < |tail| && 0 <= j < |tail| && tail[i].t.hash == tail[j].t.hash
      ensures tail[i].t.size == tail[j].t.size
    {
      assert tail[i] == consumers[i + 1] && tail[j] == consumers[j + 1];
    }
  }

  /** Binding a non-empty list leaves the table that binding its tail leaves, after the first reservation. */
  lemma BindTableStep(consumers: seq<Consumer>, table: Table)
    requires |consumers| > 0
    ensures var c := consumers[0];
            Bind(consumers, table).table == Bind(consumers[1..], ReserveDataSlot(table, c.t.hash, c.t).table).table
  {
  }

  /** The first consumer's slot has its message type's element size, when the table agrees on it. */
  lemma BindFirstSlotSize(consumers: seq<Consumer>, table: Table)
    requires SizesAgree(consumers, table) && |consumers| > 0
    ensures var r := Bind(consumers, table);
            && consumers[0].t.hash in r.table
            && r.table[consumers[0].t.hash].size == consumers[0].t.size
  {
    var c := consumers[0];
    var reserved := ReserveDataSlot(table, c.t.hash, c.t).table;
    assert reserved[c.t.hash].size == c.t.size;
    BindTableStep(consumers, table);
    BindKeepsSlots(consumers[1..], reserved);
  }

  /** A slot that binding the tail leaves at a message type's size is there after binding the whole list. */
  lemma BindSlotStep(consumers: seq<Consumer>, table: Table, t: MessageType)
    requires |consumers| > 0
    requires var c := consumers[0];
             var rest := Bind(consumers[1..], ReserveDataSlot(table, c.t.hash, c.t).table);
             t.hash in rest.table && rest.table[t.hash].size == t.size
    ensures var r := Bind(consumers, table);
            t.hash in r.table && r.table[t.hash].size == t.size
  {
    BindTableStep(consumers, table);
  }

  /** Without size-changing hash collisions, every consumer's slot has its message type's element size. */
  lemma {:induction false} BindSlotSize(consumers: seq<Consumer>, table: Table, k: nat)
    requires SizesAgree(consumers, table)
    requires k < |consumers|
    ensures var r := Bind(consumers, table);
            && consumers[k].t.hash in r.table
            && r.table[consumers[k].t.hash].size == consumers[k].t.size
    decreases |consumers|
  {
    if k == 0 {
      BindFirstSlotSize(consumers, table);
    } else {
      var c := consumers[0];
      var tail := consumers[1..];
      var reserved := ReserveDataSlot(table, c.t.hash, c.t).table;
      SizesAgreeTail(consumers, table);
      BindSlotSize(tail, reserved, k - 1);
      assert consumers[k] == tail[k - 1];
      BindSlotStep(consumers, table, consumers[k].t);
    }
  }
}

=== FILE: scenario.dfy ===
/**
  The demo of the repository as a worked case: an unmanaged `TestSystem`
  with a `[Message] NativeArray<TestMessage>` field and a managed
  `TestClassSystem : EventSystem<TestMessage>` both consume `TestMessage`
  (one 4-byte float); a producer sends two messages in one tick.
 */
module Scenario {
  import opened Bytes
  import opened Wrappers
  import opened Frames
  import opened SlotTable
  import opened EventSystem
  import opened Registry
  import opened Messenger
  import opened Drain
  import opened Dispatcher
  import opened Group

  /** `TestMessage`; its hash is whatever `GetHashCode32` gives. */
  function TestMessage(hash: int32): MessageType
  {
    MessageType("TestMessage", 4, hash)
  }

  /** `TestSystem`: an unmanaged system whose first field carries `[Message]` and holds an array of messages. */
  function TestSystem(hash: int32): SystemInfo
  {
    SystemInfo(0, false, false, [OtherInterface("ISystem"), EventSystemOf(TestMessage(hash)), EventSystemMarker],
               [FieldInfo(true, ArrayOf(TestMessage(hash)), 0)])
  }

  /** `TestClassSystem`: a managed `EventSystem<TestMessage>`, and so an `EventSystemBase`. */
  function TestClassSystem(hash: int32): SystemInfo
  {
    SystemInfo(1, true, true, EventSystemInterfaces(TestMessage(hash)), [])
  }

  /**
    The demo's update list. Its order is an assumed input: the group sorts its
    systems before registering them, that sort is not modelled, and this list
    simply puts `TestSystem` first.
   */
  function TestSystems(hash: int32): seq<SystemInfo>
  {
    [TestSystem(hash), TestClassSystem(hash)]
  }

  /** Both systems of the demo are event systems that name `TestMessage`. */
  lemma TestSystemsResolve(hash: int32)
    ensures EventSystems(TestSystems(hash)) == TestSystems(hash)
    ensures AllResolve(TestSystems(hash))
    ensures GetMessageType(TestSystem(hash).interfaces) == Some(TestMessage(hash))
    ensures GetMessageType(TestClassSystem(hash).interfaces) == Some(TestMessage(hash))
  {
    var t := TestMessage(hash);
    var systems := TestSystems(hash);
    assert IsEventSystem(systems[0]) by { assert !systems[0].interfaces[1].OtherInterface?; }
    assert IsEventSystem(systems[1]) by { assert !systems[1].interfaces[0].OtherInterface?; }
    assert systems[1..][1..] == [];
    assert TestSystem(hash).interfaces[1] == EventSystemOf(t);
    GetMessageTypeResolves(TestSystem(hash).interfaces, t);
    EventSystemResolves(t);
  }

  /** The bindings the demo registers. */
  function TestBindings(hash: int32): seq<Binding>
  {
    [Binding(0, false, hash, false, 0, None), Binding(1, true, hash, true, -1, None)]
  }

  /** Both demo bindings consume the one hash. */
  lemma TestHashes(hash: int32)
    ensures Hashes(TestBindings(hash)) == {hash}
  {
    var bs := TestBindings(hash);
    assert bs[0].hash == hash;
  }

  /** The demo systems resolve, in order, to consumers of `TestMessage`. */
  lemma TestConsumers(hash: int32)
    ensures Consumers(TestSystems(hash))
            == Success([Consumer(TestSystem(hash), TestMessage(hash)), Consumer(TestClassSystem(hash), TestMessage(hash))])
  {
    var systems := TestSystems(hash);
    TestSystemsResolve(hash);
    ConsumersAt(systems, 0);
    ConsumersAt(systems, 1);
    var cs := Consumers(systems).value;
    assert cs[0] == Consumer(TestSystem(hash), TestMessage(hash));
    assert cs[1] == Consumer(TestClassSystem(hash), TestMessage(hash));
    assert |cs| == 2;
    assert cs == [cs[0], cs[1]];
  }

  /** Registration over the demo systems: one binding each, in order, and one slot of 4-byte elements. */
  lemma TestRegister(hash: int32)
    ensures AllResolve(TestSystems(hash))
    ensures var reg := Register(TestSystems(hash), map[]).value;
            && reg.bindings == TestBindings(hash)
            && reg.table.Keys == {hash}
            && reg.table[hash].size == 4
  {
    var t := TestMessage(hash);
    var cs := [Consumer(TestSystem(hash), t), Consumer(TestClassSystem(hash), t)];
    TestConsumers(hash);
    var first := ReserveDataSlot(map[], hash, t);
    var second := ReserveDataSlot(first.table, hash, t);
    assert Bind(cs[1..], first.table).table == second.table by {
      assert cs[1..][1..] == [];
    }
    assert second.table == map[hash := NewSlot(t)];
  }

  /** Both consumers register: a multi binding at field offset 0 and a managed binding, sharing one slot. */
  lemma TestRegistration(hash: int32)
    ensures var r := StartRunning(Create(), TestSystems(hash));
            && r.Success?
            && r.value.Idle()
            && r.value.bindings == TestBindings(hash)
            && r.value.table.Keys == {hash}
            && r.value.table[hash].size == 4
            && r.value.log.Capacity() == InitialLogCapacity
  {
    TestRegister(hash);
  }

  /** The two frames the demo producer sends. */
  function TestFrames(hash: int32, first: seq<byte>, second: seq<byte>): seq<Frame>
  {
    [Single(TestMessage(hash), first), Single(TestMessage(hash), second)]
  }

  /** Viewed as `TestMessage`s, the two messages laid end to end are the two messages. */
  lemma TestMessages(first: seq<byte>, second: seq<byte>)
    requires |first| == 4 && |second| == 4
    ensures Messages(first + second, 4) == [first, second]
  {
    var xs: seq<seq<byte>> := [first, second];
    assert Flatten(xs) == first + second by {
      assert xs[1..][1..] == [];
    }
    MessagesOfFlatten(xs, 4);
  }

  /** A dispatch over the demo bindings when their slot holds the two messages updates both consumers with both. */
  lemma TestDispatch(slots: Table, hash: int32, first: seq<byte>, second: seq<byte>)
    requires |first| == 4 && |second| == 4
    requires AllValid(slots) && hash in slots && slots[hash].size == 4 && slots[hash].data == first + second
    ensures Bound(TestBindings(hash), slots)
    ensures Dispatch(TestBindings(hash), slots).updates
            == [Update(0, BoundArray(0, [first, second])), Update(1, ManagedView([first, second]))]
  {
    var bs := TestBindings(hash);
    AllPendingIndices(bs, slots);
    assert seq(2, k => k) == [0, 1];
    DispatchUpdates(bs, slots, 0);
    DispatchUpdates(bs, slots, 1);
    TestMessages(first, second);
  }

  /** From the registered demo group, a tick after the two sends updates both consumers with both messages. */
  lemma TestTickFrom(g: Group, hash: int32, first: seq<byte>, second: seq<byte>)
    requires |first| == 4 && |second| == 4
    requires g.Idle() && g.bindings == TestBindings(hash) && g.table.Keys == {hash} && g.table[hash].size == 4
    requires g.log.Capacity() >= 18
    ensures var frames := TestFrames(hash, first, second);
            && AllWellSized(frames)
            && TotalLength(frames) == 18
            && OnUpdate(SendAllTo(g, frames)).updates
               == [Update(0, BoundArray(0, [first, second])), Update(1, ManagedView([first, second]))]
  {
    var frames := TestFrames(hash, first, second);
    TestFramesSent(hash, first, second, g);
    IdleDrainContents(g, frames, hash);
    TestDispatch(AppendFrames(g.table, frames), hash, first, second);
    TickAfterSends(g, frames);
  }

  /**
    The demo end to end: the group starts, registers both consumers, and a
    tick after two `Send`s of `TestMessage` updates both consumers, in the
    order of the assumed update list `TestSystems`, each seeing both messages
    in send order.
   */
  lemma TestTick(hash: int32, first: seq<byte>, second: seq<byte>)
    requires |first| == 4 && |second| == 4
    ensures var started := StartRunning(Create(), TestSystems(hash));
            && started.Success?
            && AllWellSized(TestFrames(hash, first, second))
            && TotalLength(TestFrames(hash, first, second)) == 18
            && var r := OnUpdate(SendAllTo(started.value, TestFrames(hash, first, second)));
               r.updates == [Update(0, BoundArray(0, [first, second])), Update(1, ManagedView([first, second]))]
  {
    TestRegistration(hash);
    TestTickFrom(StartRunning(Create(), TestSystems(hash)).value, hash, first, second);
  }

  /** The demo frames are well-sized, fit the log, have registered types and carry both messages. */
  lemma TestFramesSent(hash: int32, first: seq<byte>, second: seq<byte>, g: Group)
    requires |first| == 4 && |second| == 4
    requires g.table.Keys == {hash} && g.table[hash].size == 4
    ensures var frames := TestFrames(hash, first, second);
            && AllWellSized(frames)
            && TotalLength(frames) == 18
            && FramesRegistered(frames, g.table)
            && HasPayloadFor(frames, hash)
            && ElementsFor(frames, hash) == [first, second]
            && PayloadsFor(frames, hash) == first + second
  {
    var frames := TestFrames(hash, first, second);
    assert frames[1..][1..] == [];
    assert TotalLength(frames[1..]) == 9;
    assert ElementsFor(frames[1..], hash) == [second];
    assert PayloadsFor(frames[1..], hash) == second;
    assert frames[0].Payload() == first;
  }
}

=== FILE: slots.dfy ===
/**
  The type slot table: one staging buffer per message type hash
  (`NativeHashMap<int, TypeDataHandle>`). Slots are created while consumers
  register and are only filled, read and cleared afterwards.
 */
module SlotTable {
  import opened Bytes
  import opened Frames

  /**
    A `TypeDataHandle`: the element size and the slot's `NativeList<byte>`,
    seen as its live bytes, its capacity and a generation number that changes
    exactly when the list moves to new storage. The generation stands in for
    the raw data pointer the dispatcher compares.
   */
  datatype Slot = Slot(size: pos, data: seq<byte>, capacity: nat, gen: nat)
  {
    predicate Valid()
    {
      |data| <= capacity
    }

    /** The slot holds whole elements only. */
    predicate Whole()
    {
      |data| % size == 0
    }
  }

  type Table = map<int32, Slot>

  /** A fresh slot: empty, with the initial capacity of one byte the source asks for. */
  function NewSlot(t: MessageType): (s: Slot)
    ensures s.Valid() && s.Whole()
    ensures s.data == [] && s.size == t.size
  {
    Slot(t.size, [], 1, 0)
  }

  datatype Reserved = Reserved(table: Table, slot: Slot)

  /**
    `ReserveDataSlot`: the slot already registered under `hash`, or else a new
    empty one of `sizeof(messageType)` bytes per element, added to the table.
   */
  function ReserveDataSlot(table: Table, hash: int32, messageType: MessageType): (r: Reserved)
    ensures hash in r.table && r.table[hash] == r.slot
    ensures r.table.Keys == table.Keys + {hash}
    ensures hash in table ==> r.table == table && r.slot == table[hash]
    ensures hash !in table ==> r.slot.data == [] && r.slot.size == messageType.size && r.slot.Valid()
    ensures forall h :: h in table ==> r.table[h] == table[h]
  {
    if hash in table then Reserved(table, table[hash])
    else
      var slot := NewSlot(messageType);
      Reserved(table[hash := slot], slot)
  }

  /** Reserving twice is reserving once: the second call finds the first call's slot and adds nothing. */
  lemma ReserveDataSlotIdempotent(table: Table, hash: int32, t: MessageType, t': MessageType)
    ensures var first := ReserveDataSlot(table, hash, t);
            ReserveDataSlot(first.table, hash, t') == first
  {
  }

  /**
    `NativeList.AddRange`: the bytes go after the slot's current contents. When
    they do not fit, the list moves to storage that just holds them, which
    gives it a new generation.
   */
  function Append(slot: Slot, bytes: seq<byte>): (r: Slot)
    ensures slot.Valid() ==> r.Valid()
    ensures r.data == slot.data + bytes && r.size == slot.size
    ensures r.capacity >= slot.capacity
    ensures r.gen != slot.gen <==> |slot.data| + |bytes| > slot.capacity
  {
    var needed := |slot.data| + |bytes|;
    if needed <= slot.capacity then Slot(slot.size, slot.data + bytes, slot.capacity, slot.gen)
    else Slot(slot.size, slot.data + bytes, needed, slot.gen + 1)
  }

  /** `Clear`: the logical length drops to zero; the storage, and so the generation, stay. */
  function Clear(slot: Slot): (r: Slot)
    ensures r.data == [] && r.size == slot.size && r.capacity == slot.capacity && r.gen == slot.gen
  {
    slot.(data := [])
  }

  predicate AllValid(table: Table)
  {
    forall h :: h in table ==> table[h].Valid() && table[h].Whole()
  }

  /** Clears every slot of the table and keeps every key. */
  function ClearAll(table: Table): (r: Table)
    ensures r.Keys == table.Keys
    ensures forall h :: h in table ==> r[h] == Clear(table[h])
    ensures AllValid(table) ==> AllValid(r)
  {
    map h | h in table :: Clear(table[h])
  }
}

=== FILE: wrappers.dfy ===
/** Option and Result, the failure-carrying wrappers the rest of the model returns. */
module Wrappers {

  datatype Option<+T> = None | Some(value: T)

  datatype Result<+R, +E> = Success(value: R) | Failure(error: E)
}
